=== FILE: README.md ===
# Chunk and vector bookkeeping of a small RAG pipeline, in Dafny

The pipeline ingests web pages and answers questions about them:

- a worker fetches a URL, extracts the text, splits it into chunks and embeds them;
- it records the URL and its chunks in an SQLite metadata store and the vectors in a FAISS
  index file, using each chunk row's id as the vector's id;
- the retrieval path embeds a question, takes the five nearest vectors and fetches their
  chunks back from the store;
- the prompt builder lays the chunks out for a language model.

This project models that bookkeeping as immutable values and pure functions.

| module | file | models |
|---|---|---|
| `Wrappers` | `wrappers.dfy` | `Option` and `Result` |
| `Errors` | `errors.dfy` | the exceptions that can be raised, and `str(e)` for each |
| `PyStr` | `pystr.dfy` | Python's `isspace`, `strip`, slicing, `str(n)` and `join` |
| `MetadataStore` | `metadata_store.dfy` | `data/data_utils.py`: the `urls` and `chunks` tables and their functions |
| `VectorIndex` | `vector_index.dfy` | `faiss_utils.py`: the index as id-tagged entries, the files as a map from path to index |
| `Ingestion` | `ingestion.dfy` | `worker.py`: the worker and its exception-to-status handling |
| `Retrieval` | `retrieval.dfy` | `get_closest_chunks.py`: `query_rag_pipeline` |
| `Prompts` | `prompts.dfy` | `prompts.py`: `generate_user_prompt` |

Every store operation takes the store before the call and returns the store after it.

- AUTOINCREMENT is modelled as one counter per table.
- The UNIQUE `url` column is the key of a map.
- `datetime.utcnow()` is a `now` parameter.
- Fetching, extracting, splitting and embedding are uninterpreted functions of a `Services`
  value. The extractor, the splitter and the embedding model return either their result or
  the message of the exception they raise.
- A FAISS search is handed the distance order of the stored entries as a `Ranking`. The model
  states what FAISS does with that order:
  - `k` slots come back;
  - a slot is labelled by the entry's id behind an `IndexIDMap`, or by its position in a plain
    `IndexFlatL2`;
  - slots past the stored entries are padded with `-1` at `FLT_MAX`.

`MetadataStore.Valid` is the store invariant every operation keeps:

- URL ids are distinct;
- chunk ids ascend in rowid order;
- every chunk is non-blank, with its 100-character snippet;
- every chunk points at a URL row.

`Ingestion.IndexedChunksStored` is the invariant linking the two stores: every id in every
index file names a stored chunk.

## Model

| member | source | states |
|---|---|---|
| `MetadataStore.DropTables` | data/data_utils.py:123-133 | Afterwards neither table exists, so both AUTOINCREMENT counters are gone with them. |
| `MetadataStore.CreateTables` | data/data_utils.py:11-40 | `CREATE TABLE IF NOT EXISTS`: existing tables are left exactly as they are. Missing ones come back empty, valid, with counters at 0, so drop-then-create is a reset. |
| `MetadataStore.InsertUrls` | data/data_utils.py:88-115 | A new URL gets one fresh `pending` row with chunk_count 0, and its id is returned. That id is one above every id handed out before. An existing URL leaves the store unchanged and returns its own id, so registering twice returns the same id. The store invariant is kept. |
| `MetadataStore.InsertChunks` | data/data_utils.py:43-86 | An unregistered URL raises ValueError and writes nothing. Otherwise, per `AppendsBatch`, it appends one row per non-blank `str` element and skips the rest. The returned ids are as many as the kept elements, strictly ascending, and above every earlier chunk id. chunk_count becomes the whole input's length, and no other URL row changes. The URL counter stays put, and the chunk counter advances by exactly the number of new rows, so the next chunk id follows straight on from this batch. |
| `MetadataStore.NewRowsIsBatch` | data/data_utils.py:67-80 | The appended rows carry consecutive ids in input order. Each records its element's original position (so skipped elements leave gaps), its text unchanged, and the first 100 characters as snippet. Every kept element has a row. |
| `MetadataStore.NewRowsCoverKept` | data/data_utils.py:67-70 | Each element that passes the `isinstance`/`strip` test has a row recording its position. Together with `NewRowsInOrder`, it has exactly one. |
| `MetadataStore.UpdateUrlStatus` | data/data_utils.py:135-171 | Per status: `in_progress` sets started_at; `completed` sets completed_at and overwrites chunk_count, even with None; `failed` sets completed_at and error_message; any other status changes only the status. Other rows, the id and submitted_at never change. An unknown URL changes nothing. |
| `MetadataStore.Select` | data/data_utils.py:189-199 | `SELECT … WHERE id IN (…)`: every result is a stored row whose id is listed, and every such row is among the results. In a valid store they come in ascending id order. |
| `MetadataStore.SortByChunkIndex` | data/data_utils.py:213 | The sort returns a permutation of its input. |
| `MetadataStore.SortByChunkIndexOrders` | data/data_utils.py:213 | The sorted list is non-decreasing in chunk_index. On rows in ascending id order, ties keep id order and no id repeats. |
| `MetadataStore.SortKeepsSorted` | data/data_utils.py:213 | Like Python's stable sort, it leaves a list already in chunk_index order unchanged. |
| `MetadataStore.GetChunksFromDb` | data/data_utils.py:173-215 | `[]` for no ids. Otherwise exactly the stored rows whose id was asked for, as dicts, sorted by chunk_index. Unknown ids are dropped. In a valid store each row appears once, so there are never more results than ids. |
| `MetadataStore.FetchAfterInsert` | data/data_utils.py:185-213 | Round trip: fetching the ids insert_chunks returned gives back exactly the rows it wrote, in input order, and no earlier row. |
| `VectorIndex.SaveFaissIndex` | faiss_utils.py:8-11 | The file at the path now holds the index, and every other file is untouched. |
| `VectorIndex.LoadFaissIndex` | faiss_utils.py:14-22 | An existing file gives its index. A missing file gives, without error, an empty plain `IndexFlatL2` of the requested dimension, which cannot take ids. |
| `VectorIndex.LoadAfterSave` | faiss_utils.py:8-22 | Loading what was saved gives the same index back, whatever dimension the loader asks for. |
| `VectorIndex.AddWithIds` | faiss_utils.py:49 | FAISS's `add_with_ids`, which succeeds exactly when the batch is non-empty, of the index's dimension, matched one id per vector, and the index is an `IndexIDMap`. Each failure comes in FAISS's order of checks. Existing entries are kept, and the i-th vector is appended under the i-th id. |
| `VectorIndex.AddEmbeddingsToIndex` | faiss_utils.py:55-69 | Succeeds under the same conditions as `add_with_ids`. Vectors of different lengths first make `np.array` raise its ValueError. After that, an empty batch, a wrong dimension, an id count that differs from the vector count, and a plain `IndexFlatL2` each give the error FAISS raises, in that order. On success the index keeps its kind, its dimension and its entries, followed by the i-th vector under the i-th id. The stored ids become the old ids followed by the given ones. |
| `VectorIndex.CreateFaissIndex` | faiss_utils.py:24-52 | None or an empty batch raises ValueError. Then vectors of different lengths make `np.array` raise, vectors not of the requested dimension fail FAISS's dimension check, and given ids that differ in number from the vectors fail its id-count check. It succeeds exactly when none of these applies. On success an `IndexIDMap` holds exactly one entry per (vector, id) pair, with ids 0..n-1 when none are given. It is written to `faiss_index.idx` whatever path the caller uses later. |
| `VectorIndex.SearchFaissIndex` | faiss_utils.py:72-89 | Fails on a dimension mismatch or `k = 0`. Otherwise returns exactly `k` (label, distance) pairs: the nearest entries first, labelled by id behind an `IndexIDMap`, then `-1` at `FLT_MAX` past the stored entries. |
| `VectorIndex.SearchOrdersHits` | faiss_utils.py:84-88 | The hits come nearest first, and behind an `IndexIDMap` every real hit is an id stored in the index. |
| `Ingestion.Split` | worker.py:27-40 | A None or empty fetch raises "Failed to fetch HTML content.", and nothing else does. An extractor exception gives its message. `EmptyContent` comes exactly when the extracted text is blank. A splitter exception gives its message, `NoChunks` comes exactly when the chunk list is empty, and otherwise the result is that chunk list. |
| `Ingestion.Embed` | worker.py:47-48 | An exception of the embedding model gives its message. Otherwise the step succeeds exactly when the vectors all have one length, and ragged vectors make `np.array` raise. On success the result is the model's vectors. |
| `Ingestion.Prepare` | worker.py:27-48 | Steps 1 to 3 in order: a failure of `Split` is the outcome. Otherwise an `Embed` failure is the outcome, and otherwise the result pairs the chunks with their vectors. It succeeds exactly when both steps do. |
| `Ingestion.IndexStep` | worker.py:68-81 | Succeeds exactly when the vectors are non-empty, of the file's dimension (384 for a new file), one per id, and the file takes ids. A count mismatch fails on the id-count check. On success the file holds its old ids followed by the new ones, each vector under its id. An existing file keeps its dimension and its old entries in front. No file disappears, and only the default file may also change, when the index is created. |
| `Ingestion.Commit` | worker.py:55-89 | Steps 4 to 7 keep the store valid and only ever append chunk rows. A failure leaves the index files untouched after the single `processing` call. Success makes the calls `processing` then `completed`. |
| `Ingestion.Finish` | worker.py:99-102 | The `except` clause: any exception marks a registered URL `failed` with `str(e)` and returns None. A URL never registered is left as it was. Success passes through unchanged. |
| `Ingestion.Worker` | worker.py:11-102 | The worker as written keeps the store invariant, and a run returning None never touches the index files. |
| `Ingestion.WorkerAligned` | worker.py:47 | The corrected worker, which embeds only the chunks insert_chunks keeps. It keeps the same invariants. |
| `Ingestion.StatusCalls` | worker.py:55-102 | The status calls of a run are either `processing`, `completed` with the dict returned, or `failed` alone or after `processing` with None returned. |
| `Ingestion.StopsBeforeWriting` | worker.py:27-48 | A failure in fetching, extracting, chunking or embedding only marks the URL failed. A URL never registered leaves the store completely unchanged, and the index files are untouched. |
| `Ingestion.NeverStarted` | worker.py:56 | `"processing"` takes update_url_status's generic branch, so a run never sets started_at. |
| `Ingestion.CompletedRun` | worker.py:89-97 | On success the URL row is `completed`, with chunk_count overwritten by None and completed_at set. The dict reports `len(chunks)` with blanks included, the registered id, and the ids of the new rows. Those rows hold the kept chunks' texts in order and fetch back unchanged. The index file holds its old ids followed by the new ones. |
| `Ingestion.LateFailureKeepsRows` | worker.py:63-81 | A failure after registration leaves the committed chunk rows (the kept chunks' texts) in place. The URL is marked `failed` with the exception's message after `processing`, and the index files are untouched. |
| `Ingestion.KeepsIndexResolvable` | worker.py:63-81 | Both workers keep every id in every index file naming a stored chunk. |
| `Ingestion.IgnoresEmbedDim` | worker.py:70 | EMBED_DIM has no effect on a run: an existing file decides its own dimension, and a new index always gets 384. |
| `Ingestion.KeptAllIffNoneBlank` | worker.py:47 | The stored chunks are as many as the chunks exactly when none is blank, and then they are the chunks themselves. |
| `Ingestion.BlankChunkFailsIngestion` | worker.py:47 | As written, one blank chunk fails the whole URL, even with a well-behaved embedding model. The committed rows stay, the URL ends `failed` after `processing`, and no vector reaches the index. |
| `Ingestion.CommitRejectsMisalignedIds` | worker.py:71 | With a non-empty batch of the file's dimension whose vectors are not as many as the stored chunks, the commit fails on FAISS's id-count check after the rows are written. |
| `Ingestion.AlignedWorkerPairsVectors` | worker.py:47 | The corrected worker succeeds with a well-behaved model, at least one non-blank chunk and an index file that takes ids. The j-th new index entry then holds the j-th new row's id with the embedding of that row's text. |
| `Ingestion.AlignedAgreesWithoutBlanks` | worker.py:47 | With no blank chunk the corrected worker behaves exactly like the original. |
| `Retrieval.QueryRagPipeline` | get_closest_chunks.py:5-27 | An exception of the embedding model gives its message, and ragged vectors raise in `np.array`. The query fails exactly when the model does not return vectors of one length whose flattened length is the loaded index's dimension. Otherwise returns exactly the stored chunks labelled by one of the five nearest entries, sorted by chunk_index rather than by rank. In a valid store there are at most five, each once. |
| `Retrieval.NearestAreHits` | get_closest_chunks.py:23-24 | The ids handed to get_chunks_from_db are exactly the labels of the five nearest entries, plus padding. |
| `Retrieval.TopKIgnored` | get_closest_chunks.py:23 | The `top_k` argument has no effect, because the search always asks for five. |
| `Retrieval.MissingIndexFindsNothing` | get_closest_chunks.py:20 | A missing index file raises no error: an empty index of EMBED_DIM is searched and the answer is `[]`. |
| `Retrieval.NearestAreResolved` | get_closest_chunks.py:23-26 | When every indexed id names a stored chunk, as the worker maintains, each of the five nearest entries comes back as a chunk. |
| `Prompts.ChunkLines` | prompts.py:31-34 | One line per result in input order, the k-th numbered from the start value as `Chunk i: text`. |
| `Prompts.PromptLines` | prompts.py:29-36 | Exactly `len(results) + 3` lines: the query block, the header, the chunk lines numbered from 1, and the closing instruction. |
| `Prompts.GenerateUserPrompt` | prompts.py:16-39 | The prompt begins with `User Query:\n`, the query, a blank line and the header. It ends with the separating line break followed by the instruction, which opens with its own line break. |
| `Prompts.GenerateUserPromptLayout` | prompts.py:38 | The newline-joined lines are the prompt written out. The empty result list gives only header and footer. |
| `PyStr.NatToString` | prompts.py:34 | `str(i)` in `Chunk {i}:` is non-empty decimal digits, beginning with `0` only for 0. |
| `PyStr.NatToStringReadsBack` | prompts.py:34 | Reading the digits back as a decimal number gives `i`, so each chunk line carries its own number. |
| `PyStr.Strip` | prompts.py:32 | `strip()` is empty exactly when the text is whitespace. `StripIsSlice` shows it is the text between two blank margins. |
| `PyStr.StripIsSlice` | prompts.py:32 | The stripped text is a slice of the input with only whitespace on either side. |

## Left out

- Fetching, HTML extraction, the LangChain splitter and the sentence-transformer model are
  uninterpreted functions of `Services`. Lemmas that need them to behave say so in their
  requires, through `EmbedsEach`.
- The float vectors and the L2 distances FAISS computes are not modelled, nor is the index
  file format. A search is given the distance order as a `Ranking`, and the float32/int64
  conversions are identities.
- The vectors' components are numbers, so a non-numeric embedding list is not modelled.
- The extractor returns a string. Its `None` is not modelled separately, since the worker
  treats it like the empty string, which raises `EmptyContent`.
- `datetime.utcnow()` is the `now` parameter, and the worker's whole run uses one `now`.
- `load_db_as_pandas`, every `print`, and the `__main__` blocks are not modelled.
- The module-level SQLite connections, the extra connection that get_chunks_from_db opens,
  and concurrent workers sharing one index file are not modelled. Each function is one
  committed transaction.
- The operations are defined on the tables' contents. Calling them after `drop_tables`
  (where SQLite raises "no such table") is not modelled.
- `MetadataStore.Select` takes the rows of `id IN (…)` in rowid order. This is SQLite's plan
  for that query, but SQL leaves the order unspecified.
- `Errors.Message` gives the FAISS RuntimeError only as the sentence at its core, without
  the file and line FAISS prefixes. For ragged vectors it gives only the first sentence of
  numpy's ValueError, without the shape details numpy appends.
- `Ingestion.Split` takes `chunk_text(content, chunk_size=1000, chunk_overlap=100)` as
  the uninterpreted `chunkText`. Its parameters are not modelled.

## Findings

| source | as written | input that shows it | evidently intended | confidence | as-written member | corrected member |
|---|---|---|---|---|---|---|
| worker.py:47 | get_embeddings is given every chunk, but insert_chunks (data/data_utils.py:67-70) returns ids only for the non-blank ones. `add_with_ids` then fails its id-count assertion after the chunk rows are committed: the URL is marked `failed`, its rows stay in the store, and no vector is indexed. | a splitter output that contains a whitespace-only chunk, e.g. `["some text", "   "]`. This is latent with the current services: extract_text_from_html collapses whitespace (get_data.py:49), and LangChain's splitter strips chunks by default, so only another splitter or extractor would produce one | embed only the chunks that are stored, so the i-th vector is indexed under the i-th returned id | low, not executed | `Ingestion.BlankChunkFailsIngestion` | `Ingestion.AlignedWorkerPairsVectors` |

=== FILE: errors.dfy ===
/** The exceptions the ingestion and retrieval code can raise, and the text `str(e)`
    that the worker records as a URL's error message. */
module Errors {

  datatype Error =
    | FetchFailed              // worker.py: the fetched HTML is None or ""
    | EmptyContent             // worker.py: the extracted text is blank
    | NoChunks                 // worker.py: the splitter produced no chunks
    | UrlNotFound(url: string) // data/data_utils.py: insert_chunks for an unregistered URL
    | EmptyEmbeddings          // faiss_utils.py: create_faiss_index with None or []
    | NotAMatrix               // numpy: `n, d = x.shape` on the 1-D array made from []
    | DimensionMismatch        // FAISS wrapper: `assert d == self.d` on add or search
    | NonPositiveK             // FAISS wrapper: `assert k > 0` in search
    | IdCountMismatch          // FAISS wrapper: `assert ids.shape == (n,)` in add_with_ids
    | AddWithIdsUnsupported    // FAISS: add_with_ids on a plain IndexFlatL2
    | RaggedEmbeddings         // numpy: `np.array(embeddings)` of vectors of different lengths
    | Raised(message: string)  // an exception raised inside the extractor, splitter or embedding model

  /** `str(e)` for the exception raised. The library failures carry the library's own text:
      the unpacking ValueError its message, a bare `assert` the empty message, the id-count
      assertion its message, the RuntimeError and numpy's ragged-array ValueError the sentence
      at their core, and an exception from a service whatever text it carries. */
  function Message(e: Error): string {
    match e
    case FetchFailed => "Failed to fetch HTML content."
    case EmptyContent => "Extracted content is empty."
    case NoChunks => "No valid text chunks generated."
    case UrlNotFound(url) => "URL " + url + " not found in urls table."
    case EmptyEmbeddings => "Embeddings array is empty."
    case NotAMatrix => "not enough values to unpack (expected 2, got 1)"
    case DimensionMismatch => ""
    case NonPositiveK => ""
    case IdCountMismatch => "not same nb of vectors as ids"
    case AddWithIdsUnsupported => "add_with_ids not implemented for this type of index"
    case RaggedEmbeddings => "setting an array element with a sequence."
    case Raised(message) => message
  }
}

=== FILE: ingestion.dfy ===
/** The ingestion worker of worker.py: fetch a URL, extract and chunk its text, embed the
    chunks, record the URL and its chunks in the metadata store and the vectors in the
    index file, and keep the URL's status up to date.

    The HTML fetcher, the text extractor, the splitter (`chunk_size=1000,
    chunk_overlap=100`) and the embedding model are outside this model: they are the
    uninterpreted functions of `Services`, and a lemma that needs them to behave says so
    in its requires. The whole run uses one `now` for its timestamps. */
module Ingestion {
  import opened Wrappers
  import opened PyStr
  import opened Errors
  import opened MetadataStore
  import opened VectorIndex

  /** The fetcher returns None where fetch_html does (it catches its own request errors).
      The extractor, the splitter and the embedding model return either their result or
      the text `str(e)` of the exception they raise. */
  datatype Services = Services(
    fetchHtml: string -> Option<string>,
    extractText: string -> Result<string, string>,
    chunkText: string -> Result<seq<string>, string>,
    getEmbeddings: seq<string> -> Result<seq<Vector>, string>)

  /** The metadata store and the index files together. */
  datatype State = State(store: Store, disk: Disk)

  /** One update_url_status call the worker makes, with the arguments it passes. */
  datatype StatusCall = StatusCall(status: string, chunkCount: Option<int>, errorMessage: Option<string>)

  /** The dict the worker returns on success. */
  datatype Ingested = Ingested(url: string, urlId: nat, chunkCount: nat, faissIds: seq<nat>)

  /** Where the `try` block stops: the state it leaves, the status calls it made, and the
      value it returns or the exception it raises. */
  datatype Attempt = Attempt(state: State, calls: seq<StatusCall>, outcome: Result<Ingested, Error>)

  /** A whole worker run: final state, every status call, and the return value (None on
      failure). */
  datatype Run = Run(state: State, calls: seq<StatusCall>, output: Option<Ingested>)

  /** The status the worker sets once the URL is registered. It is none of the four
      statuses update_url_status gives extra columns to, so it only changes `status`. */
  const PROCESSING := "processing"

  const MARK_PROCESSING := StatusCall(PROCESSING, None, None)
  const MARK_COMPLETED := StatusCall(COMPLETED, None, None)

  function MarkFailed(e: Error): StatusCall {
    StatusCall(FAILED, None, Some(Message(e)))
  }

  // ---------------------------------------------------------------------------
  // Chunks
  // ---------------------------------------------------------------------------

  /** The chunk list as handed to insert_chunks: every element a `str`. */
  function Elements(chunks: seq<string>): (r: seq<Element>)
    ensures |r| == |chunks| && forall i | 0 <= i < |chunks| :: r[i] == Str(chunks[i])
  {
    seq(|chunks|, i requires 0 <= i < |chunks| => Str(chunks[i]))
  }

  /** The chunks insert_chunks stores (the non-blank ones), in order. */
  function KeptTexts(chunks: seq<string>): (r: seq<string>)
    ensures forall j | 0 <= j < |r| :: !IsBlank(r[j])
    ensures |r| <= |chunks|
  {
    if |chunks| == 0 then []
    else (if IsBlank(chunks[0]) then [] else [chunks[0]]) + KeptTexts(chunks[1..])
  }

  function TextsOf(rows: seq<ChunkRow>): (r: seq<string>)
    ensures |r| == |rows| && forall j | 0 <= j < |rows| :: r[j] == rows[j].text
  {
    seq(|rows|, j requires 0 <= j < |rows| => rows[j].text)
  }

  /** The rows insert_chunks writes carry exactly the kept chunks' texts, in order. */
  lemma {:induction false} RowTextsAreKept(chunks: seq<string>, from: nat, urlId: nat, last: nat, now: Timestamp)
    requires from <= |chunks|
    decreases |chunks| - from
    ensures TextsOf(NewRows(Elements(chunks), from, urlId, last, now)) == KeptTexts(chunks[from..])
  {
    if from < |chunks| {
      var last' := if IsBlank(chunks[from]) then last else last + 1;
      RowTextsAreKept(chunks, from + 1, urlId, last', now);
      RowTextsStep(chunks, from, urlId, last, now);
      KeptTextsStep(chunks, from);
    }
  }

  /** One element of insert_chunks' loop: a blank chunk adds no row, any other adds one
      row with its text. */
  lemma RowTextsStep(chunks: seq<string>, from: nat, urlId: nat, last: nat, now: Timestamp)
    requires from < |chunks|
    ensures var last' := if IsBlank(chunks[from]) then last else last + 1;
      TextsOf(NewRows(Elements(chunks), from, urlId, last, now))
        == (if IsBlank(chunks[from]) then [] else [chunks[from]]) + TextsOf(NewRows(Elements(chunks), from + 1, urlId, last', now))
  {
    var items := Elements(chunks);
    assert items[from] == Str(chunks[from]);
    if !IsBlank(chunks[from]) {
      var row := ChunkRow(last + 1, urlId, from, chunks[from], Prefix(chunks[from], SNIPPET_LENGTH), now);
      var rest := NewRows(items, from + 1, urlId, last + 1, now);
      assert NewRows(items, from, urlId, last, now) == [row] + rest;
      TextsOfCons(row, rest);
    }
  }

  lemma TextsOfCons(row: ChunkRow, rest: seq<ChunkRow>)
    ensures TextsOf([row] + rest) == [row.text] + TextsOf(rest)
  {
  }

  lemma KeptTextsStep(chunks: seq<string>, from: nat)
    requires from < |chunks|
    ensures KeptTexts(chunks[from..]) == (if IsBlank(chunks[from]) then [] else [chunks[from]]) + KeptTexts(chunks[from + 1..])
  {
  }

  /** The number of stored chunks equals the number of chunks exactly when none is blank,
      and then the stored texts are the chunks themselves. */
  lemma {:induction false} KeptAllIffNoneBlank(chunks: seq<string>)
    ensures |KeptTexts(chunks)| == |chunks| <==> forall i | 0 <= i < |chunks| :: !IsBlank(chunks[i])
    ensures (forall i | 0 <= i < |chunks| :: !IsBlank(chunks[i])) ==> KeptTexts(chunks) == chunks
  {
    if |chunks| > 0 {
      KeptAllIffNoneBlank(chunks[1..]);
      assert forall i | 1 <= i < |chunks| :: chunks[i] == chunks[1..][i - 1];
      if IsBlank(chunks[0]) {
        assert |KeptTexts(chunks)| <= |chunks[1..]|;
      } else {
        assert KeptTexts(chunks) == [chunks[0]] + KeptTexts(chunks[1..]);
        if forall i | 0 <= i < |chunks| :: !IsBlank(chunks[i]) {
          assert chunks == [chunks[0]] + chunks[1..];
        }
      }
    }
  }

  lemma SomeBlankMeansFewer(chunks: seq<string>)
    requires exists i | 0 <= i < |chunks| :: IsBlank(chunks[i])
    ensures |KeptTexts(chunks)| < |chunks|
  {
    KeptAllIffNoneBlank(chunks);
  }

  /** What get_embeddings is given: every chunk, as worker.py does; or, in the corrected
      worker, only the chunks insert_chunks keeps. */
  function EmbeddingInput(chunks: seq<string>, keptOnly: bool): seq<string> {
    if keptOnly then KeptTexts(chunks) else chunks
  }

  // ---------------------------------------------------------------------------
  // The index step
  // ---------------------------------------------------------------------------

  /** The ids the index file at `path` holds before the step ([] when there is none). */
  function PriorIds(disk: Disk, path: string): seq<int> {
    if path in disk then IdsIn(disk[path]) else []
  }

  /** The dimension the step's vectors must have: the stored index's, or 384 for the index
      create_faiss_index builds with its default dimension. */
  function TargetDim(disk: Disk, path: string): nat {
    if path in disk then disk[path].dim else DEFAULT_DIMENSION
  }

  /** The index file, if any, can take ids. */
  predicate AcceptsIds(disk: Disk, path: string) {
    path !in disk || disk[path].kind == IdMap
  }

  /** The index file holds its old ids followed by `ids`, and an existing file keeps its
      dimension and its old entries in front; no file disappears, and the other files are
      as before, except the default file when the index had to be created. */
  ghost predicate IndexExtended(before: Disk, faissFile: string, disk: Disk, ids: seq<int>) {
    && faissFile in disk
    && IdsIn(disk[faissFile]) == PriorIds(before, faissFile) + ids
    && (forall p | p in before :: p in disk)
    && (faissFile in before ==>
          && disk[faissFile].dim == before[faissFile].dim
          && |before[faissFile].entries| <= |disk[faissFile].entries|
          && disk[faissFile].entries[..|before[faissFile].entries|] == before[faissFile].entries)
    && (forall p | p in disk && p != faissFile ::
          if faissFile !in before && p == DEFAULT_INDEX_FILE then disk[p] == disk[faissFile]
          else p in before && disk[p] == before[p])
  }

  /** Step 6 of the worker. An existing file is loaded (the requested dimension plays no
      part, as the file decides), the batch added and the result saved back; otherwise
      create_faiss_index builds the index with dimension 384, saving it to the default
      file, and the worker saves it again under `path`. */
  function IndexStep(disk: Disk, path: string, embedDim: nat, embs: seq<Vector>, ids: seq<int>): (r: Result<Disk, Error>)
    ensures r.Success? <==>
      |embs| > 0 && AllOfDimension(embs, TargetDim(disk, path)) && |ids| == |embs| && AcceptsIds(disk, path)
    ensures |embs| > 0 && AllOfDimension(embs, TargetDim(disk, path)) && |ids| != |embs| ==>
      r == Failure(IdCountMismatch)
    ensures r.Success? ==> IndexExtended(disk, path, r.value, ids)
    ensures r.Success? ==>
      && r.value[path].kind == IdMap
      && (forall j | 0 <= j < |ids| :: r.value[path].entries[|PriorIds(disk, path)| + j] == Entry(ids[j], embs[j]))
  {
    if path in disk then ExtendIndexFile(disk, path, embedDim, embs, ids)
    else CreateIndexFile(disk, path, embs, ids)
  }

  /** The index file exists: load it, add the batch and save it back. */
  function ExtendIndexFile(disk: Disk, path: string, embedDim: nat, embs: seq<Vector>, ids: seq<int>): (r: Result<Disk, Error>)
    requires path in disk
    ensures r.Success? <==>
      |embs| > 0 && AllOfDimension(embs, TargetDim(disk, path)) && |ids| == |embs| && AcceptsIds(disk, path)
    ensures |embs| > 0 && AllOfDimension(embs, TargetDim(disk, path)) && |ids| != |embs| ==>
      r == Failure(IdCountMismatch)
    ensures r.Success? ==> IndexExtended(disk, path, r.value, ids)
    ensures r.Success? ==>
      && r.value[path].kind == IdMap
      && (forall j | 0 <= j < |ids| :: r.value[path].entries[|PriorIds(disk, path)| + j] == Entry(ids[j], embs[j]))
  {
    var ix := LoadFaissIndex(disk, path, embedDim);
    var added := AddEmbeddingsToIndex(ix, embs, ids);
    if added.Failure? then Failure(added.error)
    else
      assert AddWithIds(ix, embs, ids) == added;
      Success(SaveFaissIndex(disk, added.value, path))
  }

  /** There is no index file: create_faiss_index builds one (saving it to the default file)
      and the worker saves it under `path`. */
  function CreateIndexFile(disk: Disk, path: string, embs: seq<Vector>, ids: seq<int>): (r: Result<Disk, Error>)
    requires path !in disk
    ensures r.Success? <==>
      |embs| > 0 && AllOfDimension(embs, TargetDim(disk, path)) && |ids| == |embs| && AcceptsIds(disk, path)
    ensures |embs| > 0 && AllOfDimension(embs, TargetDim(disk, path)) && |ids| != |embs| ==>
      r == Failure(IdCountMismatch)
    ensures r.Success? ==> IndexExtended(disk, path, r.value, ids)
    ensures r.Success? ==>
      && r.value[path].kind == IdMap
      && (forall j | 0 <= j < |ids| :: r.value[path].entries[|PriorIds(disk, path)| + j] == Entry(ids[j], embs[j]))
  {
    var created := CreateFaissIndex(disk, Some(embs), Some(ids), DEFAULT_DIMENSION);
    if created.Failure? then Failure(created.error)
    else
      CreatedIndexExtends(disk, path, embs, ids);
      Success(SaveFaissIndex(created.value.disk, created.value.index, path))
  }

  /** The index create_faiss_index builds, saved under a new `path`, extends the disk by
      exactly the batch. */
  lemma CreatedIndexExtends(disk: Disk, path: string, embs: seq<Vector>, ids: seq<int>)
    requires path !in disk
    requires CreateFaissIndex(disk, Some(embs), Some(ids), DEFAULT_DIMENSION).Success?
    ensures var c := CreateFaissIndex(disk, Some(embs), Some(ids), DEFAULT_DIMENSION).value;
      var d := SaveFaissIndex(c.disk, c.index, path);
      && IndexExtended(disk, path, d, ids)
      && d[path].kind == IdMap
      && (forall j | 0 <= j < |ids| :: d[path].entries[j] == Entry(ids[j], embs[j]))
  {
    var c := CreateFaissIndex(disk, Some(embs), Some(ids), DEFAULT_DIMENSION).value;
    assert IdsIn(c.index) == ids;
  }

  // ---------------------------------------------------------------------------
  // The worker
  // ---------------------------------------------------------------------------

  /** Steps 1 and 2: fetch, extract, chunk, and the three checks that raise before anything
      is written. The extracted text is rejected exactly when `strip()` leaves nothing; an
      exception from the extractor or the splitter ends the step with its message. */
  function Split(svc: Services, url: string): (r: Result<seq<string>, Error>)
    ensures var html := svc.fetchHtml(url);
      r == Failure(FetchFailed) <==> html.None? || html.value == ""
    ensures var html := svc.fetchHtml(url);
      html.Some? && html.value != "" ==> ExtractStep(svc, html.value, r)
  {
    var html := svc.fetchHtml(url);
    if html.None? || |html.value| == 0 then Failure(FetchFailed)
    else
      var content := svc.extractText(html.value);
      if content.Failure? then Failure(Raised(content.error))
      else if |Strip(content.value)| == 0 then Failure(EmptyContent)
      else
        var chunks := svc.chunkText(content.value);
        if chunks.Failure? then Failure(Raised(chunks.error))
        else if |chunks.value| == 0 then Failure(NoChunks)
        else Success(chunks.value)
  }

  /** What step 1 gives for fetched HTML: the extractor's exception, `EmptyContent` exactly
      when the extracted text is blank, and otherwise what the splitter gives. */
  ghost predicate ExtractStep(svc: Services, html: string, r: Result<seq<string>, Error>) {
    var content := svc.extractText(html);
    && (content.Failure? ==> r == Failure(Raised(content.error)))
    && (content.Success? ==> (r == Failure(EmptyContent) <==> IsBlank(content.value)))
    && (content.Success? && !IsBlank(content.value) ==> SplitStep(svc.chunkText(content.value), r))
  }

  /** What step 2 gives for the splitter's outcome: its exception, `NoChunks` exactly when
      the chunk list is empty, and otherwise the chunk list. */
  ghost predicate SplitStep(chunks: Result<seq<string>, string>, r: Result<seq<string>, Error>) {
    && (chunks.Failure? ==> r == Failure(Raised(chunks.error)))
    && (chunks.Success? ==> (r == Failure(NoChunks) <==> |chunks.value| == 0))
    && (chunks.Success? && |chunks.value| > 0 ==> r == Success(chunks.value))
  }

  /** Step 3: `get_embeddings(...)` and its float32 conversion. The model's exception ends
      the step with its message, and vectors of different lengths make `np.array` raise. */
  function Embed(svc: Services, chunks: seq<string>, keptOnly: bool): (r: Result<seq<Vector>, Error>)
    ensures var got := svc.getEmbeddings(EmbeddingInput(chunks, keptOnly));
      && (got.Failure? ==> r == Failure(Raised(got.error)))
      && (got.Success? ==> (r.Success? <==> Rectangular(got.value)))
      && (got.Success? && !Rectangular(got.value) ==> r == Failure(RaggedEmbeddings))
      && (r.Success? ==> got.Success? && r.value == got.value)
  {
    var got := svc.getEmbeddings(EmbeddingInput(chunks, keptOnly));
    if got.Failure? then Failure(Raised(got.error))
    else if !Rectangular(got.value) then Failure(RaggedEmbeddings)
    else Success(got.value)
  }

  /** The chunks and their vectors, once steps 1 to 3 have passed. */
  datatype Prepared = Prepared(chunks: seq<string>, embeddings: seq<Vector>)

  /** Steps 1 to 3, everything the worker does before it writes: the first failure among
      them is the outcome. */
  function Prepare(svc: Services, url: string, keptOnly: bool): (r: Result<Prepared, Error>)
    ensures r.Success? <==> Split(svc, url).Success? && Embed(svc, Split(svc, url).value, keptOnly).Success?
    ensures Split(svc, url).Failure? ==> r == Failure(Split(svc, url).error)
    ensures Split(svc, url).Success? ==>
      var e := Embed(svc, Split(svc, url).value, keptOnly);
      && (e.Failure? ==> r == Failure(e.error))
      && (e.Success? ==> r == Success(Prepared(Split(svc, url).value, e.value)))
  {
    var chunks := Split(svc, url);
    if chunks.Failure? then Failure(chunks.error)
    else
      var embs := Embed(svc, chunks.value, keptOnly);
      if embs.Failure? then Failure(embs.error)
      else Success(Prepared(chunks.value, embs.value))
  }

  /** Steps 4 to 7: register the URL and mark it `processing`, store the chunks, index the
      vectors under the returned ids, mark the URL `completed`. Each step commits, so a
      failure in the index step leaves the URL row and the chunk rows in place. */
  function Commit(st: State, chunks: seq<string>, embs: seq<Vector>, faissFile: string, embedDim: nat, url: string, now: Timestamp): (a: Attempt)
    ensures Valid(st.store) ==> Valid(a.state.store)
    ensures |st.store.chunks| <= |a.state.store.chunks| && a.state.store.chunks[..|st.store.chunks|] == st.store.chunks
    ensures a.outcome.Failure? ==> a.state.disk == st.disk && a.calls == [MARK_PROCESSING]
    ensures a.outcome.Success? ==> a.calls == [MARK_PROCESSING, MARK_COMPLETED]
    ensures url in a.state.store.urls
  {
    var reg := InsertUrls(st.store, url, now);
    var marked := UpdateUrlStatus(reg.store, url, PROCESSING, None, None, now);
    var ins := InsertChunks(marked, url, Elements(chunks), now);
    if ins.Failure? then Attempt(State(marked, st.disk), [MARK_PROCESSING], Failure(UrlNotFound(url)))
    else
      var stored := ins.value.store;
      assert stored.chunks[..|st.store.chunks|] == st.store.chunks by {
        assert stored.chunks[..|marked.chunks|] == marked.chunks;
      }
      var indexed := IndexStep(st.disk, faissFile, embedDim, embs, ins.value.ids);
      if indexed.Failure? then Attempt(State(stored, st.disk), [MARK_PROCESSING], Failure(indexed.error))
      else
        var done := UpdateUrlStatus(stored, url, COMPLETED, None, None, now);
        Attempt(State(done, indexed.value), [MARK_PROCESSING, MARK_COMPLETED],
          Success(Ingested(url, reg.id, |chunks|, ins.value.ids)))
  }

  /** The `try` block of worker.py. The embeddings are computed before the URL is
      registered, so nothing is written when the first steps raise. */
  function TryIngest(st: State, svc: Services, faissFile: string, embedDim: nat, url: string, now: Timestamp, keptOnly: bool): (a: Attempt)
    ensures Valid(st.store) ==> Valid(a.state.store)
    ensures a.outcome.Failure? ==> a.state.disk == st.disk
    ensures a.outcome.Success? ==> a.calls == [MARK_PROCESSING, MARK_COMPLETED]
    ensures a.outcome.Failure? ==> a.calls == [] || a.calls == [MARK_PROCESSING]
  {
    var prepared := Prepare(svc, url, keptOnly);
    if prepared.Failure? then Attempt(st, [], Failure(prepared.error))
    else Commit(st, prepared.value.chunks, prepared.value.embeddings, faissFile, embedDim, url, now)
  }

  /** Once steps 1 to 3 succeed, the `try` block is the commit of the prepared chunks. */
  lemma AttemptCommits(st: State, svc: Services, faissFile: string, embedDim: nat, url: string, now: Timestamp, keptOnly: bool)
    requires Prepare(svc, url, keptOnly).Success?
    ensures var p := Prepare(svc, url, keptOnly).value;
      TryIngest(st, svc, faissFile, embedDim, url, now, keptOnly)
        == Commit(st, p.chunks, p.embeddings, faissFile, embedDim, url, now)
  {
  }

  /** The `except` clause: any exception marks the URL failed with `str(e)` (a URL that was
      never registered matches no row) and the worker returns None. */
  function Finish(a: Attempt, url: string, now: Timestamp): (r: Run)
    ensures r.output.Some? <==> a.outcome.Success?
    ensures a.outcome.Success? ==> r.state == a.state && r.calls == a.calls
    ensures a.outcome.Failure? ==>
      && r.state.disk == a.state.disk
      && r.calls == a.calls + [MarkFailed(a.outcome.error)]
      && r.state.store.chunks == a.state.store.chunks
      && r.state.store.urls.Keys == a.state.store.urls.Keys
      && (url in a.state.store.urls ==>
            r.state.store.urls[url].status == FAILED
            && r.state.store.urls[url].errorMessage == Some(Message(a.outcome.error)))
      && (url !in a.state.store.urls ==> r.state.store == a.state.store)
    ensures Valid(a.state.store) ==> Valid(r.state.store)
  {
    if a.outcome.Success? then Run(a.state, a.calls, Some(a.outcome.value))
    else
      var call := MarkFailed(a.outcome.error);
      Run(State(UpdateUrlStatus(a.state.store, url, FAILED, None, call.errorMessage, now), a.state.disk),
          a.calls + [call], None)
  }

  /** A worker run; `keptOnly` chooses what get_embeddings is given. */
  function RunWorker(st: State, svc: Services, faissFile: string, embedDim: nat, url: string, now: Timestamp, keptOnly: bool): (r: Run)
    ensures Valid(st.store) ==> Valid(r.state.store)
    ensures r.output.None? ==> r.state.disk == st.disk
  {
    Finish(TryIngest(st, svc, faissFile, embedDim, url, now, keptOnly), url, now)
  }

  /** worker(FAISS_FILE, EMBED_DIM, url) as written: every chunk is embedded. */
  function Worker(st: State, svc: Services, faissFile: string, embedDim: nat, url: string, now: Timestamp): (r: Run)
    ensures Valid(st.store) ==> Valid(r.state.store)
    ensures r.output.None? ==> r.state.disk == st.disk
  {
    RunWorker(st, svc, faissFile, embedDim, url, now, false)
  }

  /** The corrected worker: only the chunks insert_chunks keeps are embedded, so the i-th
      vector belongs to the i-th returned id. */
  function WorkerAligned(st: State, svc: Services, faissFile: string, embedDim: nat, url: string, now: Timestamp): (r: Run)
    ensures Valid(st.store) ==> Valid(r.state.store)
    ensures r.output.None? ==> r.state.disk == st.disk
  {
    RunWorker(st, svc, faissFile, embedDim, url, now, true)
  }

  // ---------------------------------------------------------------------------
  // Properties of a run
  // ---------------------------------------------------------------------------

  /** The status calls of a run: `failed` alone when the first steps raise, otherwise
      `processing` followed by `completed` on success or `failed` on failure. The failure
      message is `str(e)` of the exception raised. */
  lemma StatusCalls(st: State, svc: Services, faissFile: string, embedDim: nat, url: string, now: Timestamp, keptOnly: bool)
    ensures var r := RunWorker(st, svc, faissFile, embedDim, url, now, keptOnly);
      || (r.output.Some? && r.calls == [MARK_PROCESSING, MARK_COMPLETED])
      || (r.output.None? && exists e: Error :: r.calls == [MarkFailed(e)] || r.calls == [MARK_PROCESSING, MarkFailed(e)])
  {
    FinishCalls(TryIngest(st, svc, faissFile, embedDim, url, now, keptOnly), url, now);
  }

  lemma FinishCalls(a: Attempt, url: string, now: Timestamp)
    requires a.outcome.Success? ==> a.calls == [MARK_PROCESSING, MARK_COMPLETED]
    requires a.outcome.Failure? ==> a.calls == [] || a.calls == [MARK_PROCESSING]
    ensures var r := Finish(a, url, now);
      || (r.output.Some? && r.calls == [MARK_PROCESSING, MARK_COMPLETED])
      || (r.output.None? && exists e: Error :: r.calls == [MarkFailed(e)] || r.calls == [MARK_PROCESSING, MarkFailed(e)])
  {
    var r := Finish(a, url, now);
    if a.outcome.Failure? {
      var e := a.outcome.error;
      if a.calls == [] {
        assert r.calls == [MarkFailed(e)];
      } else {
        assert r.calls == [MARK_PROCESSING, MarkFailed(e)];
      }
    }
  }

  /** When fetching, extracting, chunking or embedding fails, the run writes nothing but
      the `failed` status and its message, which changes nothing for a URL never
      registered; the index files are untouched. */
  lemma StopsBeforeWriting(st: State, svc: Services, faissFile: string, embedDim: nat, url: string, now: Timestamp, keptOnly: bool)
    requires Prepare(svc, url, keptOnly).Failure?
    ensures var r := RunWorker(st, svc, faissFile, embedDim, url, now, keptOnly);
      var e := Prepare(svc, url, keptOnly).error;
      && r.output.None?
      && r.calls == [MarkFailed(e)]
      && r.state.disk == st.disk
      && r.state.store == UpdateUrlStatus(st.store, url, FAILED, None, Some(Message(e)), now)
      && (url !in st.store.urls ==> r.state.store == st.store)
  {
  }

  /** A failure after the first steps (in practice, in the index step) comes after the URL
      was marked `processing` and its chunks committed: the rows stay, carrying the kept
      chunks' texts, the URL ends `failed` with `str(e)` as its message, and the index files
      are untouched. */
  lemma LateFailureKeepsRows(st: State, svc: Services, faissFile: string, embedDim: nat, url: string, now: Timestamp, keptOnly: bool)
    requires Prepare(svc, url, keptOnly).Success?
    requires RunWorker(st, svc, faissFile, embedDim, url, now, keptOnly).output.None?
    ensures var r := RunWorker(st, svc, faissFile, embedDim, url, now, keptOnly);
      && |r.calls| == 2 && r.calls[0] == MARK_PROCESSING && r.calls[1].status == FAILED
      && r.state.disk == st.disk
      && |st.store.chunks| <= |r.state.store.chunks|
      && TextsOf(NewBatch(st.store, r.state.store)) == KeptTexts(Prepare(svc, url, keptOnly).value.chunks)
      && url in r.state.store.urls
      && r.state.store.urls[url].status == FAILED
      && r.state.store.urls[url].errorMessage == r.calls[1].errorMessage
  {
    var chunks := Prepare(svc, url, keptOnly).value.chunks;
    var embs := Prepare(svc, url, keptOnly).value.embeddings;
    AttemptCommits(st, svc, faissFile, embedDim, url, now, keptOnly);
    var a := TryIngest(st, svc, faissFile, embedDim, url, now, keptOnly);
    CommitFailureKeepsRows(st, chunks, embs, faissFile, embedDim, url, now);
    FailureAfterProcessing(a, url, now);
    assert NewBatch(st.store, Finish(a, url, now).state.store) == NewBatch(st.store, a.state.store);
  }

  lemma CommitFailureKeepsRows(st: State, chunks: seq<string>, embs: seq<Vector>, faissFile: string, embedDim: nat, url: string, now: Timestamp)
    requires Commit(st, chunks, embs, faissFile, embedDim, url, now).outcome.Failure?
    ensures var a := Commit(st, chunks, embs, faissFile, embedDim, url, now);
      && |st.store.chunks| <= |a.state.store.chunks|
      && TextsOf(NewBatch(st.store, a.state.store)) == KeptTexts(chunks)
  {
    var marked := UpdateUrlStatus(InsertUrls(st.store, url, now).store, url, PROCESSING, None, None, now);
    InsertedTexts(marked, url, chunks, now);
    var ins := InsertChunks(marked, url, Elements(chunks), now).value;
    var a := Commit(st, chunks, embs, faissFile, embedDim, url, now);
    assert a.state.store == ins.store;
    assert NewBatch(st.store, a.state.store) == NewBatch(marked, ins.store);
  }

  /** The worker never sets started_at: "processing" is not the `in_progress` status that
      records it, so a URL keeps the started_at it had (none for a URL it registers). */
  lemma NeverStarted(st: State, svc: Services, faissFile: string, embedDim: nat, url: string, now: Timestamp, keptOnly: bool)
    ensures var r := RunWorker(st, svc, faissFile, embedDim, url, now, keptOnly);
      url in r.state.store.urls ==>
        r.state.store.urls[url].startedAt == (if url in st.store.urls then st.store.urls[url].startedAt else None)
  {
    if Prepare(svc, url, keptOnly).Success? {
      var chunks := Prepare(svc, url, keptOnly).value.chunks;
      AttemptCommits(st, svc, faissFile, embedDim, url, now, keptOnly);
      CommitNeverStarts(st, chunks, Prepare(svc, url, keptOnly).value.embeddings, faissFile, embedDim, url, now);
    }
  }

  lemma CommitNeverStarts(st: State, chunks: seq<string>, embs: seq<Vector>, faissFile: string, embedDim: nat, url: string, now: Timestamp)
    ensures var a := Commit(st, chunks, embs, faissFile, embedDim, url, now);
      url in a.state.store.urls
      && a.state.store.urls[url].startedAt == (if url in st.store.urls then st.store.urls[url].startedAt else None)
  {
    var reg := InsertUrls(st.store, url, now);
    var marked := UpdateUrlStatus(reg.store, url, PROCESSING, None, None, now);
    assert marked.urls[url].startedAt == reg.store.urls[url].startedAt;
    var ins := InsertChunks(marked, url, Elements(chunks), now);
    if ins.Success? {
      var stored := ins.value.store;
      assert stored.urls[url].startedAt == marked.urls[url].startedAt;
      var done := UpdateUrlStatus(stored, url, COMPLETED, None, None, now);
      assert done.urls[url].startedAt == stored.urls[url].startedAt;
    }
  }

  /** The chunk batch a successful or index-failed run appended to the store. */
  function NewBatch(before: Store, after: Store): seq<ChunkRow>
    requires |before.chunks| <= |after.chunks|
  {
    after.chunks[|before.chunks|..]
  }

  lemma CountKeptIsKept(chunks: seq<string>)
    ensures CountKept(Elements(chunks)) == |KeptTexts(chunks)|
  {
    RowTextsAreKept(chunks, 0, 0, 0, "");
    assert Elements(chunks)[0..] == Elements(chunks);
    assert chunks[0..] == chunks;
  }

  /** What a successful commit of `chunks` leaves behind, as seen from the state before. */
  ghost predicate Completes(st: State, chunks: seq<string>, faissFile: string, url: string, now: Timestamp, a: Attempt)
    requires a.outcome.Success? && |st.store.chunks| <= |a.state.store.chunks|
  {
    && UrlCompleted(chunks, url, now, a.state.store, a.outcome.value)
    && BatchStored(st.store, chunks, a.state.store, a.outcome.value)
    && IndexExtended(st.disk, faissFile, a.state.disk, a.outcome.value.faissIds)
  }

  /** The URL row is `completed`, with a NULL chunk_count and the returned url_id. */
  ghost predicate UrlCompleted(chunks: seq<string>, url: string, now: Timestamp, s: Store, o: Ingested) {
    && o.url == url && o.chunkCount == |chunks|
    && url in s.urls
    && s.urls[url].id == o.urlId
    && s.urls[url].status == COMPLETED
    && s.urls[url].chunkCount == None
    && s.urls[url].completedAt == Some(now)
  }

  /** The new chunk rows carry the kept chunks' texts in order under the returned ids and
      url_id, and fetching those ids gives them back. */
  ghost predicate BatchStored(before: Store, chunks: seq<string>, s: Store, o: Ingested)
    requires |before.chunks| <= |s.chunks|
  {
    var batch := NewBatch(before, s);
    && o.faissIds == IdsOf(batch)
    && TextsOf(batch) == KeptTexts(chunks)
    && (forall j | 0 <= j < |batch| :: batch[j].urlId == o.urlId)
    && GetChunksFromDb(s, o.faissIds) == Records(batch)
  }

  /** The batch insert_chunks appends for a chunk list: the kept chunks' texts in order,
      under the URL's id and the returned ids. */
  lemma InsertedTexts(marked: Store, url: string, chunks: seq<string>, now: Timestamp)
    requires url in marked.urls
    ensures InsertChunks(marked, url, Elements(chunks), now).Success?
    ensures var ins := InsertChunks(marked, url, Elements(chunks), now).value;
      var rows := NewBatch(marked, ins.store);
      && TextsOf(rows) == KeptTexts(chunks)
      && ins.ids == IdsOf(rows)
      && (forall j | 0 <= j < |rows| :: rows[j].urlId == marked.urls[url].id)
  {
    var items := Elements(chunks);
    var ins := InsertChunks(marked, url, items, now).value;
    var rows := NewRows(items, 0, marked.urls[url].id, marked.chunkSeq, now);
    assert ins.store.chunks == marked.chunks + rows;
    assert NewBatch(marked, ins.store) == rows;
    RowTextsAreKept(chunks, 0, marked.urls[url].id, marked.chunkSeq, now);
    assert chunks[0..] == chunks;
  }

  /** ... and fetching the returned ids gives the batch back. */
  lemma InsertedBatch(marked: Store, url: string, chunks: seq<string>, now: Timestamp)
    requires Valid(marked) && url in marked.urls
    ensures InsertChunks(marked, url, Elements(chunks), now).Success?
    ensures var ins := InsertChunks(marked, url, Elements(chunks), now).value;
      var rows := NewBatch(marked, ins.store);
      && TextsOf(rows) == KeptTexts(chunks)
      && ins.ids == IdsOf(rows)
      && (forall j | 0 <= j < |rows| :: rows[j].urlId == marked.urls[url].id)
      && GetChunksFromDb(ins.store, ins.ids) == Records(rows)
  {
    InsertedTexts(marked, url, chunks, now);
    FetchAfterInsert(marked, url, Elements(chunks), now);
  }

  lemma CommitCompletes(st: State, chunks: seq<string>, embs: seq<Vector>, faissFile: string, embedDim: nat, url: string, now: Timestamp)
    requires Valid(st.store)
    requires Commit(st, chunks, embs, faissFile, embedDim, url, now).outcome.Success?
    ensures Completes(st, chunks, faissFile, url, now, Commit(st, chunks, embs, faissFile, embedDim, url, now))
  {
    var reg := InsertUrls(st.store, url, now);
    var marked := UpdateUrlStatus(reg.store, url, PROCESSING, None, None, now);
    InsertedBatch(marked, url, chunks, now);
    var ins := InsertChunks(marked, url, Elements(chunks), now).value;
    var indexed := IndexStep(st.disk, faissFile, embedDim, embs, ins.ids);
    var done := UpdateUrlStatus(ins.store, url, COMPLETED, None, None, now);
    var a := Commit(st, chunks, embs, faissFile, embedDim, url, now);
    assert indexed.Success?;
    assert a == Attempt(State(done, indexed.value), [MARK_PROCESSING, MARK_COMPLETED],
      Success(Ingested(url, reg.id, |chunks|, ins.ids)));
    assert marked.urls[url].id == reg.id;
    assert UrlCompleted(chunks, url, now, done, a.outcome.value);
    assert NewBatch(st.store, done) == NewBatch(marked, ins.store);
    assert GetChunksFromDb(done, ins.ids) == GetChunksFromDb(ins.store, ins.ids);
    assert BatchStored(st.store, chunks, done, a.outcome.value);
  }

  /** What a successful run leaves behind. The URL row is `completed` with a NULL
      chunk_count (the final update_url_status passes none) and the returned url_id; the
      new chunk rows belong to that id, carry the kept chunks' texts in order, and are the
      returned ids; fetching those ids gives the batch back; and the index file holds the
      ids it held before followed by the returned ids. */
  lemma CompletedRun(st: State, svc: Services, faissFile: string, embedDim: nat, url: string, now: Timestamp, keptOnly: bool)
    requires Valid(st.store)
    requires RunWorker(st, svc, faissFile, embedDim, url, now, keptOnly).output.Some?
    ensures Prepare(svc, url, keptOnly).Success?
    ensures var r := RunWorker(st, svc, faissFile, embedDim, url, now, keptOnly);
      var o := r.output.value;
      var chunks := Prepare(svc, url, keptOnly).value.chunks;
      var batch := NewBatch(st.store, r.state.store);
      && o.url == url && o.chunkCount == |chunks|
      && url in r.state.store.urls
      && r.state.store.urls[url].id == o.urlId
      && r.state.store.urls[url].status == COMPLETED
      && r.state.store.urls[url].chunkCount == None
      && r.state.store.urls[url].completedAt == Some(now)
      && o.faissIds == IdsOf(batch)
      && TextsOf(batch) == KeptTexts(chunks)
      && (forall j | 0 <= j < |batch| :: batch[j].urlId == o.urlId)
      && GetChunksFromDb(r.state.store, o.faissIds) == Records(batch)
      && faissFile in r.state.disk
      && IdsIn(r.state.disk[faissFile]) == PriorIds(st.disk, faissFile) + o.faissIds
  {
    CompletedAttempt(st, svc, faissFile, embedDim, url, now, keptOnly);
  }

  /** A successful run is a successful commit of the prepared chunks. */
  lemma CompletedAttempt(st: State, svc: Services, faissFile: string, embedDim: nat, url: string, now: Timestamp, keptOnly: bool)
    requires Valid(st.store)
    requires RunWorker(st, svc, faissFile, embedDim, url, now, keptOnly).output.Some?
    ensures Prepare(svc, url, keptOnly).Success?
    ensures var r := RunWorker(st, svc, faissFile, embedDim, url, now, keptOnly);
      && |st.store.chunks| <= |r.state.store.chunks|
      && Completes(st, Prepare(svc, url, keptOnly).value.chunks, faissFile, url, now, Attempt(r.state, r.calls, Success(r.output.value)))
  {
    var a := TryIngest(st, svc, faissFile, embedDim, url, now, keptOnly);
    var chunks := Prepare(svc, url, keptOnly).value.chunks;
    var embs := Prepare(svc, url, keptOnly).value.embeddings;
    assert a == Commit(st, chunks, embs, faissFile, embedDim, url, now);
    CommitCompletes(st, chunks, embs, faissFile, embedDim, url, now);
    var r := RunWorker(st, svc, faissFile, embedDim, url, now, keptOnly);
    assert Attempt(r.state, r.calls, Success(r.output.value)) == a;
  }

  /** A chunk id is stored in the metadata store. */
  ghost predicate HasChunkId(s: Store, id: int) {
    exists i | 0 <= i < |s.chunks| :: s.chunks[i].id as int == id
  }

  /** Every id in every index file names a stored chunk, so a search can only return
      ids that get_chunks_from_db can resolve. */
  ghost predicate IndexedChunksStored(st: State) {
    forall p, k | p in st.disk && 0 <= k < |st.disk[p].entries| :: HasChunkId(st.store, st.disk[p].entries[k].id)
  }

  lemma GrowthKeepsIds(s: Store, s': Store, id: int)
    requires |s.chunks| <= |s'.chunks| && s'.chunks[..|s.chunks|] == s.chunks
    requires HasChunkId(s, id)
    ensures HasChunkId(s', id)
  {
    var i :| 0 <= i < |s.chunks| && s.chunks[i].id as int == id;
    assert s'.chunks[i] == s'.chunks[..|s.chunks|][i];
  }

  lemma NewIdsStored(before: Store, s: Store, ids: seq<nat>)
    requires |before.chunks| <= |s.chunks| && ids == IdsOf(NewBatch(before, s))
    ensures forall j | 0 <= j < |ids| :: HasChunkId(s, ids[j])
  {
    forall j | 0 <= j < |ids|
      ensures HasChunkId(s, ids[j])
    {
      assert s.chunks[|before.chunks| + j] == NewBatch(before, s)[j];
    }
  }

  /** Adding rows keeps every indexed id resolvable while the index files stay as they are. */
  lemma GrownStoreResolves(st: State, st': State)
    requires IndexedChunksStored(st) && st'.disk == st.disk
    requires |st.store.chunks| <= |st'.store.chunks| && st'.store.chunks[..|st.store.chunks|] == st.store.chunks
    ensures IndexedChunksStored(st')
  {
    forall p, k | p in st'.disk && 0 <= k < |st'.disk[p].entries|
      ensures HasChunkId(st'.store, st'.disk[p].entries[k].id)
    {
      GrowthKeepsIds(st.store, st'.store, st.disk[p].entries[k].id);
    }
  }

  /** An index file extended by the ids of the newly appended rows keeps every indexed id
      resolvable. */
  lemma ExtendedIndexResolves(st: State, st': State, faissFile: string, ids: seq<nat>)
    requires IndexedChunksStored(st)
    requires |st.store.chunks| <= |st'.store.chunks| && st'.store.chunks[..|st.store.chunks|] == st.store.chunks
    requires ids == IdsOf(NewBatch(st.store, st'.store))
    requires IndexExtended(st.disk, faissFile, st'.disk, ids)
    ensures IndexedChunksStored(st')
  {
    var prior := PriorIds(st.disk, faissFile);
    NewIdsStored(st.store, st'.store, ids);
    forall p, k | p in st'.disk && 0 <= k < |st'.disk[p].entries|
      ensures HasChunkId(st'.store, st'.disk[p].entries[k].id)
    {
      var q := if p == faissFile || (faissFile !in st.disk && p == DEFAULT_INDEX_FILE) then faissFile else p;
      assert st'.disk[p] == st'.disk[q];
      var id := st'.disk[q].entries[k].id;
      if q == faissFile {
        assert id == IdsIn(st'.disk[q])[k] == (prior + ids)[k];
        if k < |prior| {
          assert id == IdsIn(st.disk[faissFile])[k];
          GrowthKeepsIds(st.store, st'.store, id);
        } else {
          assert id == ids[k - |prior|];
        }
      } else {
        GrowthKeepsIds(st.store, st'.store, st.disk[p].entries[k].id);
      }
    }
  }

  /** Both workers keep every indexed id resolvable: on failure the index files are
      untouched and chunk rows are only ever added; on success the new index entries carry
      exactly the ids of the new rows. */
  lemma KeepsIndexResolvable(st: State, svc: Services, faissFile: string, embedDim: nat, url: string, now: Timestamp, keptOnly: bool)
    requires Valid(st.store) && IndexedChunksStored(st)
    ensures IndexedChunksStored(RunWorker(st, svc, faissFile, embedDim, url, now, keptOnly).state)
  {
    var r := RunWorker(st, svc, faissFile, embedDim, url, now, keptOnly);
    if r.output.None? {
      var a := TryIngest(st, svc, faissFile, embedDim, url, now, keptOnly);
      assert r.state.store.chunks == a.state.store.chunks;
      if Prepare(svc, url, keptOnly).Success? {
        var chunks := Prepare(svc, url, keptOnly).value.chunks;
        assert a == Commit(st, chunks, Prepare(svc, url, keptOnly).value.embeddings, faissFile, embedDim, url, now);
      }
      GrownStoreResolves(st, r.state);
    } else {
      CompletedAttempt(st, svc, faissFile, embedDim, url, now, keptOnly);
      var a := TryIngest(st, svc, faissFile, embedDim, url, now, keptOnly);
      var chunks := Prepare(svc, url, keptOnly).value.chunks;
      assert a == Commit(st, chunks, Prepare(svc, url, keptOnly).value.embeddings, faissFile, embedDim, url, now);
      ExtendedIndexResolves(st, r.state, faissFile, r.output.value.faissIds);
    }
  }

  /** The index step never reads the dimension the worker is given: an existing file
      decides its own, and a new index always gets the default 384. */
  lemma IndexStepIgnoresEmbedDim(disk: Disk, path: string, d1: nat, d2: nat, embs: seq<Vector>, ids: seq<int>)
    ensures IndexStep(disk, path, d1, embs, ids) == IndexStep(disk, path, d2, embs, ids)
  {
    if path in disk {
      assert LoadFaissIndex(disk, path, d1) == LoadFaissIndex(disk, path, d2);
    }
  }

  /** Hence EMBED_DIM has no effect on a run. */
  lemma IgnoresEmbedDim(st: State, svc: Services, faissFile: string, d1: nat, d2: nat, url: string, now: Timestamp, keptOnly: bool)
    ensures RunWorker(st, svc, faissFile, d1, url, now, keptOnly) == RunWorker(st, svc, faissFile, d2, url, now, keptOnly)
  {
    if Prepare(svc, url, keptOnly).Success? {
      var chunks := Prepare(svc, url, keptOnly).value.chunks;
      var embs := Prepare(svc, url, keptOnly).value.embeddings;
      var marked := UpdateUrlStatus(InsertUrls(st.store, url, now).store, url, PROCESSING, None, None, now);
      var ins := InsertChunks(marked, url, Elements(chunks), now);
      if ins.Success? {
        IndexStepIgnoresEmbedDim(st.disk, faissFile, d1, d2, embs, ins.value.ids);
      }
      assert Commit(st, chunks, embs, faissFile, d1, url, now) == Commit(st, chunks, embs, faissFile, d2, url, now);
    }
  }

  // ---------------------------------------------------------------------------
  // Embeddings against ids
  // ---------------------------------------------------------------------------

  /** The embedding model returns, without raising, one vector of dimension `dim` per text. */
  predicate EmbedsEach(embed: seq<string> -> Result<seq<Vector>, string>, texts: seq<string>, dim: nat) {
    && embed(texts).Success?
    && |embed(texts).value| == |texts|
    && AllOfDimension(embed(texts).value, dim)
  }

  /** As written, a single blank chunk sinks the whole URL even with a well-behaved
      embedding model: get_embeddings sees every chunk but insert_chunks returns ids only
      for the non-blank ones, so add_with_ids fails its id-count assertion after the chunk
      rows have been committed. The URL ends `failed`, its rows stay in the store and no
      vector reaches the index. */
  lemma BlankChunkFailsIngestion(st: State, svc: Services, faissFile: string, embedDim: nat, url: string, now: Timestamp)
    requires Valid(st.store)
    requires Split(svc, url).Success?
    requires var chunks := Split(svc, url).value;
      && (exists i | 0 <= i < |chunks| :: IsBlank(chunks[i]))
      && EmbedsEach(svc.getEmbeddings, chunks, TargetDim(st.disk, faissFile))
    ensures var r := Worker(st, svc, faissFile, embedDim, url, now);
      var chunks := Split(svc, url).value;
      && r.output.None?
      && r.calls == [MARK_PROCESSING, MarkFailed(IdCountMismatch)]
      && r.state.disk == st.disk
      && |r.state.store.chunks| == |st.store.chunks| + |KeptTexts(chunks)|
      && url in r.state.store.urls
      && r.state.store.urls[url].status == FAILED
  {
    var chunks := Split(svc, url).value;
    var embs := svc.getEmbeddings(chunks).value;
    assert Embed(svc, chunks, false) == Success(embs);
    var a := TryIngest(st, svc, faissFile, embedDim, url, now, false);
    AttemptCommits(st, svc, faissFile, embedDim, url, now, false);
    SomeBlankMeansFewer(chunks);
    CommitRejectsMisalignedIds(st, chunks, embs, faissFile, embedDim, url, now);
    assert a.outcome == Failure(IdCountMismatch);
    assert a.calls == [MARK_PROCESSING] && a.state.disk == st.disk && url in a.state.store.urls;
    var r := Finish(a, url, now);
    assert Worker(st, svc, faissFile, embedDim, url, now) == r;
    FailureAfterProcessing(a, url, now);
  }

  lemma FailureAfterProcessing(a: Attempt, url: string, now: Timestamp)
    requires a.outcome.Failure? && a.calls == [MARK_PROCESSING]
    ensures Finish(a, url, now).calls == [MARK_PROCESSING, MarkFailed(a.outcome.error)]
  {
  }

  /** The commit fails on the id-count assertion whenever the model returned a different
      number of vectors than there are stored chunks. */
  lemma CommitRejectsMisalignedIds(st: State, chunks: seq<string>, embs: seq<Vector>, faissFile: string, embedDim: nat, url: string, now: Timestamp)
    requires Valid(st.store)
    requires |embs| > 0 && AllOfDimension(embs, TargetDim(st.disk, faissFile)) && |embs| != |KeptTexts(chunks)|
    ensures var a := Commit(st, chunks, embs, faissFile, embedDim, url, now);
      && a.outcome == Failure(IdCountMismatch)
      && |a.state.store.chunks| == |st.store.chunks| + |KeptTexts(chunks)|
  {
    var marked := UpdateUrlStatus(InsertUrls(st.store, url, now).store, url, PROCESSING, None, None, now);
    var ins := InsertChunks(marked, url, Elements(chunks), now).value;
    CountKeptIsKept(chunks);
    assert |ins.ids| == |KeptTexts(chunks)|;
    var indexed := IndexStep(st.disk, faissFile, embedDim, embs, ins.ids);
    assert indexed == Failure(IdCountMismatch);
    assert Commit(st, chunks, embs, faissFile, embedDim, url, now) == Attempt(State(ins.store, st.disk), [MARK_PROCESSING], Failure(IdCountMismatch));
  }

  /** The corrected worker stores each vector under the id of the chunk it was computed
      from: the j-th new index entry pairs the j-th new row's id with the embedding of the
      j-th text given to the model, and that text is the row's text. With at least one
      non-blank chunk, a well-behaved model and an index file that takes ids, it succeeds. */
  lemma AlignedWorkerPairsVectors(st: State, svc: Services, faissFile: string, embedDim: nat, url: string, now: Timestamp)
    requires Split(svc, url).Success?
    requires var kept := KeptTexts(Split(svc, url).value);
      && |kept| > 0
      && EmbedsEach(svc.getEmbeddings, kept, TargetDim(st.disk, faissFile))
      && AcceptsIds(st.disk, faissFile)
    ensures var r := WorkerAligned(st, svc, faissFile, embedDim, url, now);
      var kept := KeptTexts(Split(svc, url).value);
      && r.output.Some?
      && |st.store.chunks| <= |r.state.store.chunks|
      && faissFile in r.state.disk
      && PairsRows(NewBatch(st.store, r.state.store), kept, r.state.disk[faissFile],
                   |PriorIds(st.disk, faissFile)|, svc.getEmbeddings(kept).value)
  {
    var chunks := Split(svc, url).value;
    var kept := KeptTexts(chunks);
    var embs := svc.getEmbeddings(kept).value;
    assert Embed(svc, chunks, true) == Success(embs);
    AttemptCommits(st, svc, faissFile, embedDim, url, now, true);
    AlignedCommitPairs(st, chunks, embs, faissFile, embedDim, url, now);
  }

  /** The `j`-th row of `batch` has the `j`-th text, and index entry `offset + j` holds the
      row's id with the `j`-th vector. */
  ghost predicate PairsRows(batch: seq<ChunkRow>, texts: seq<string>, ix: Index, offset: nat, embs: seq<Vector>) {
    && |batch| == |texts| == |embs|
    && offset + |batch| <= |ix.entries|
    && forall j | 0 <= j < |batch| ::
         && batch[j].text == texts[j]
         && ix.entries[offset + j] == Entry(batch[j].id, embs[j])
  }

  lemma IndexStepPairs(disk: Disk, path: string, embedDim: nat, embs: seq<Vector>, batch: seq<ChunkRow>, texts: seq<string>)
    requires IndexStep(disk, path, embedDim, embs, IdsOf(batch)).Success?
    requires TextsOf(batch) == texts
    ensures var d := IndexStep(disk, path, embedDim, embs, IdsOf(batch)).value;
      path in d && PairsRows(batch, texts, d[path], |PriorIds(disk, path)|, embs)
  {
    var d := IndexStep(disk, path, embedDim, embs, IdsOf(batch)).value;
    assert |IdsIn(d[path])| == |PriorIds(disk, path)| + |batch|;
    forall j | 0 <= j < |batch|
      ensures batch[j].text == texts[j]
    {
      assert TextsOf(batch)[j] == batch[j].text;
    }
  }

  lemma AlignedCommitPairs(st: State, chunks: seq<string>, embs: seq<Vector>, faissFile: string, embedDim: nat, url: string, now: Timestamp)
    requires var kept := KeptTexts(chunks);
      && |kept| > 0 && |embs| == |kept| && AllOfDimension(embs, TargetDim(st.disk, faissFile))
      && AcceptsIds(st.disk, faissFile)
    ensures var a := Commit(st, chunks, embs, faissFile, embedDim, url, now);
      && a.outcome.Success?
      && |st.store.chunks| <= |a.state.store.chunks|
      && faissFile in a.state.disk
      && PairsRows(NewBatch(st.store, a.state.store), KeptTexts(chunks), a.state.disk[faissFile], |PriorIds(st.disk, faissFile)|, embs)
  {
    var kept := KeptTexts(chunks);
    var reg := InsertUrls(st.store, url, now);
    var marked := UpdateUrlStatus(reg.store, url, PROCESSING, None, None, now);
    InsertedTexts(marked, url, chunks, now);
    var ins := InsertChunks(marked, url, Elements(chunks), now).value;
    var batch := NewBatch(marked, ins.store);
    assert |ins.ids| == |kept|;
    var indexed := IndexStep(st.disk, faissFile, embedDim, embs, ins.ids);
    assert indexed.Success?;
    IndexStepPairs(st.disk, faissFile, embedDim, embs, batch, kept);
    var done := UpdateUrlStatus(ins.store, url, COMPLETED, None, None, now);
    var a := Commit(st, chunks, embs, faissFile, embedDim, url, now);
    assert a == Attempt(State(done, indexed.value), [MARK_PROCESSING, MARK_COMPLETED],
      Success(Ingested(url, reg.id, |chunks|, ins.ids)));
    assert NewBatch(st.store, done) == batch;
  }

  /** Where the original works as intended (no blank chunk), the corrected worker behaves
      exactly like it. */
  lemma AlignedAgreesWithoutBlanks(st: State, svc: Services, faissFile: string, embedDim: nat, url: string, now: Timestamp)
    requires Split(svc, url).Success? ==>
      forall i | 0 <= i < |Split(svc, url).value| :: !IsBlank(Split(svc, url).value[i])
    ensures WorkerAligned(st, svc, faissFile, embedDim, url, now) == Worker(st, svc, faissFile, embedDim, url, now)
  {
    if Split(svc, url).Success? {
      KeptAllIffNoneBlank(Split(svc, url).value);
    }
  }
}

=== FILE: metadata_store.dfy ===
/** The SQLite metadata store of data/data_utils.py as an immutable value.

    The `urls` table is a map keyed by its UNIQUE `url` column; the `chunks` table is a
    sequence in rowid order. Both tables use AUTOINCREMENT, so each keeps the largest id it
    ever handed out (`urlSeq`, `chunkSeq`: SQLite's `sqlite_sequence` rows) and the next
    row gets that value plus one. Every function is one committed transaction: it takes the
    store before the call and returns the store after it. `datetime.utcnow()` becomes the
    `now` parameter. */
module MetadataStore {
  import opened Wrappers
  import opened PyStr
  import opened Errors

  /** An ISO-8601 text from `datetime.utcnow().isoformat()`; never inspected. */
  type Timestamp = string

  const PENDING := "pending"
  const IN_PROGRESS := "in_progress"
  const COMPLETED := "completed"
  const FAILED := "failed"

  /** `chunk_text[:100]` is stored as the snippet. */
  const SNIPPET_LENGTH: nat := 100

  /** A row of `urls`, without its key. `chunk_count` is a nullable INTEGER (DEFAULT 0). */
  datatype UrlRow = UrlRow(
    id: nat,
    status: string,
    submittedAt: Timestamp,
    startedAt: Option<Timestamp>,
    completedAt: Option<Timestamp>,
    chunkCount: Option<int>,
    errorMessage: Option<string>)

  /** A row of `chunks`. Its `id` is also the chunk's id in the vector index. */
  datatype ChunkRow = ChunkRow(
    id: nat,
    urlId: nat,
    chunkIndex: nat,
    text: string,
    snippet: string,
    createdAt: Timestamp)

  datatype Store = Store(urls: map<string, UrlRow>, chunks: seq<ChunkRow>, urlSeq: nat, chunkSeq: nat)

  /** The database file: either both tables exist, or they have been dropped. */
  datatype Database = NoTables | Tables(store: Store)

  /** One element of the list given to insert_chunks: a Python `str` or any other object. */
  datatype Element = Str(value: string) | NotStr

  /** The dict get_chunks_from_db builds from a selected row. */
  datatype ChunkRecord = ChunkRecord(faissId: nat, chunkIndex: nat, text: string, snippet: string)

  datatype Registered = Registered(store: Store, id: nat)

  datatype Inserted = Inserted(store: Store, ids: seq<nat>)

  // ---------------------------------------------------------------------------
  // Store invariant
  // ---------------------------------------------------------------------------

  /** Some URL row carries id `id`. */
  ghost predicate HasUrlId(s: Store, id: nat) {
    exists u | u in s.urls :: s.urls[u].id == id
  }

  /** A chunk row as insert_chunks writes it: non-blank text and its 100-character snippet. */
  predicate WellFormedChunk(c: ChunkRow) {
    !IsBlank(c.text) && c.snippet == Prefix(c.text, SNIPPET_LENGTH)
  }

  /** What AUTOINCREMENT, the UNIQUE url column and insert_chunks jointly guarantee:
      distinct URL ids within the sequence, chunk ids strictly ascending in rowid order and
      within the sequence, and every chunk pointing at a URL row. */
  ghost predicate Valid(s: Store) {
    && (forall u | u in s.urls :: 1 <= s.urls[u].id <= s.urlSeq)
    && (forall u, v | u in s.urls && v in s.urls && u != v :: s.urls[u].id != s.urls[v].id)
    && (forall i | 0 <= i < |s.chunks| :: 1 <= s.chunks[i].id <= s.chunkSeq)
    && (forall i | 0 <= i < |s.chunks| :: WellFormedChunk(s.chunks[i]))
    && (forall i | 0 <= i < |s.chunks| :: HasUrlId(s, s.chunks[i].urlId))
    && ChunkIdsAscending(s.chunks)
  }

  // ---------------------------------------------------------------------------
  // drop_tables / create_tables
  // ---------------------------------------------------------------------------

  /** drop_tables: both tables and their AUTOINCREMENT counters are gone. */
  function DropTables(db: Database): (r: Database)
    ensures r.NoTables?
  {
    NoTables
  }

  /** create_tables: CREATE TABLE IF NOT EXISTS, so existing tables are kept as they are
      and missing ones are created empty with fresh counters. */
  function CreateTables(db: Database): (r: Database)
    ensures r.Tables?
    ensures db.Tables? ==> r == db
    ensures db.NoTables? ==> Valid(r.store) && r.store.urls == map[] && r.store.chunks == []
    ensures db.NoTables? ==> r.store.urlSeq == 0 && r.store.chunkSeq == 0
  {
    if db.Tables? then db else Tables(Store(map[], [], 0, 0))
  }

  // ---------------------------------------------------------------------------
  // insert_urls
  // ---------------------------------------------------------------------------

  /** insert_urls: a new URL gets a fresh `pending` row with chunk_count 0 and its id is
      returned; an existing URL violates UNIQUE, nothing is written and its id is returned. */
  function InsertUrls(s: Store, url: string, now: Timestamp): (r: Registered)
    ensures url in r.store.urls && r.store.urls[url].id == r.id
    ensures r.store.chunks == s.chunks && r.store.chunkSeq == s.chunkSeq
    ensures url in s.urls ==> r.store == s
    ensures url !in s.urls ==>
      && r.store.urls.Keys == s.urls.Keys + {url}
      && (forall u | u in s.urls :: r.store.urls[u] == s.urls[u])
      && r.store.urls[url] == UrlRow(r.id, PENDING, now, None, None, Some(0), None)
    ensures url !in s.urls ==> r.id == s.urlSeq + 1 && r.store.urlSeq == r.id
    ensures url !in s.urls && Valid(s) ==> forall u | u in s.urls :: s.urls[u].id < r.id
    ensures Valid(s) ==> Valid(r.store)
  {
    if url in s.urls then
      Registered(s, s.urls[url].id)
    else
      var id := s.urlSeq + 1;
      var s' := s.(urls := s.urls[url := UrlRow(id, PENDING, now, None, None, Some(0), None)], urlSeq := id);
      InsertUrlsKeepsValid(s, url, now, s');
      Registered(s', id)
  }

  lemma InsertUrlsKeepsValid(s: Store, url: string, now: Timestamp, s': Store)
    requires url !in s.urls
    requires s' == s.(urls := s.urls[url := UrlRow(s.urlSeq + 1, PENDING, now, None, None, Some(0), None)], urlSeq := s.urlSeq + 1)
    ensures Valid(s) ==> Valid(s')
  {
    if Valid(s) {
      forall i | 0 <= i < |s'.chunks|
        ensures HasUrlId(s', s'.chunks[i].urlId)
      {
        assert HasUrlId(s, s.chunks[i].urlId);
        var u :| u in s.urls && s.urls[u].id == s.chunks[i].urlId;
        assert s'.urls[u] == s.urls[u];
      }
    }
  }

  // ---------------------------------------------------------------------------
  // insert_chunks
  // ---------------------------------------------------------------------------

  /** The test insert_chunks applies to each element: a `str` whose strip() is not "",
      i.e. (by `Strip`'s contract) a `str` that is not blank. */
  predicate Keeps(e: Element) {
    e.Str? && !IsBlank(e.value)
  }

  /** How many elements insert_chunks keeps. */
  function CountKept(items: seq<Element>): nat {
    if |items| == 0 then 0
    else (if Keeps(items[0]) then 1 else 0) + CountKept(items[1..])
  }

  /** `row` is what insert_chunks writes for element `row.chunkIndex` of `items`. */
  predicate RowFor(items: seq<Element>, urlId: nat, now: Timestamp, row: ChunkRow) {
    && row.chunkIndex < |items|
    && Keeps(items[row.chunkIndex])
    && row.urlId == urlId
    && row.text == items[row.chunkIndex].value
    && row.snippet == Prefix(row.text, SNIPPET_LENGTH)
    && row.createdAt == now
  }

  /** The rows the loop of insert_chunks inserts for `items[from..]` when the last id handed
      out so far is `last`: one per kept element, ids consecutive (`NewRowsInOrder` and
      `NewRowsCoverKept` state which elements they come from). */
  function NewRows(items: seq<Element>, from: nat, urlId: nat, last: nat, now: Timestamp): (rows: seq<ChunkRow>)
    requires from <= |items|
    decreases |items| - from
    ensures |rows| == CountKept(items[from..])
    ensures forall j | 0 <= j < |rows| :: rows[j].id == last + 1 + j
    ensures forall j | 0 <= j < |rows| :: from <= rows[j].chunkIndex && RowFor(items, urlId, now, rows[j])
  {
    if from == |items| then []
    else
      assert items[from..][1..] == items[from + 1..];
      var e := items[from];
      if Keeps(e) then
        [ChunkRow(last + 1, urlId, from, e.value, Prefix(e.value, SNIPPET_LENGTH), now)]
          + NewRows(items, from + 1, urlId, last + 1, now)
      else
        NewRows(items, from + 1, urlId, last, now)
  }

  predicate RowsInOrder(rows: seq<ChunkRow>) {
    forall j, k | 0 <= j < k < |rows| :: rows[j].chunkIndex < rows[k].chunkIndex
  }

  /** Rows come out in input order. */
  lemma {:induction false} NewRowsInOrder(items: seq<Element>, from: nat, urlId: nat, last: nat, now: Timestamp)
    requires from <= |items|
    decreases |items| - from
    ensures RowsInOrder(NewRows(items, from, urlId, last, now))
  {
    if from < |items| {
      var e := items[from];
      if Keeps(e) {
        NewRowsInOrder(items, from + 1, urlId, last + 1, now);
        var rest := NewRows(items, from + 1, urlId, last + 1, now);
        var head := ChunkRow(last + 1, urlId, from, e.value, Prefix(e.value, SNIPPET_LENGTH), now);
        assert NewRows(items, from, urlId, last, now) == [head] + rest;
        InOrderWithHead(head, rest);
      } else {
        NewRowsInOrder(items, from + 1, urlId, last, now);
        assert NewRows(items, from, urlId, last, now) == NewRows(items, from + 1, urlId, last, now);
      }
    }
  }

  lemma InOrderWithHead(head: ChunkRow, rest: seq<ChunkRow>)
    requires RowsInOrder(rest)
    requires forall j | 0 <= j < |rest| :: head.chunkIndex < rest[j].chunkIndex
    ensures RowsInOrder([head] + rest)
  {
    var rows := [head] + rest;
    forall j, k | 0 <= j < k < |rows|
      ensures rows[j].chunkIndex < rows[k].chunkIndex
    {
      assert rows[k] == rest[k - 1];
      if j > 0 {
        assert rows[j] == rest[j - 1];
      }
    }
  }

  /** Every kept element of `items[from..]` has a row recording its position. */
  ghost predicate CoversKept(items: seq<Element>, from: nat, rows: seq<ChunkRow>) {
    forall i | from <= i < |items| && Keeps(items[i]) :: exists j | 0 <= j < |rows| :: rows[j].chunkIndex == i
  }

  /** Every kept element of `items[from..]` gets a row. */
  lemma {:induction false} NewRowsCoverKept(items: seq<Element>, from: nat, urlId: nat, last: nat, now: Timestamp)
    requires from <= |items|
    decreases |items| - from
    ensures CoversKept(items, from, NewRows(items, from, urlId, last, now))
  {
    if from < |items| {
      var rows := NewRows(items, from, urlId, last, now);
      var e := items[from];
      var last' := if Keeps(e) then last + 1 else last;
      var rest := NewRows(items, from + 1, urlId, last', now);
      NewRowsCoverKept(items, from + 1, urlId, last', now);
      if Keeps(e) {
        var head := ChunkRow(last + 1, urlId, from, e.value, Prefix(e.value, SNIPPET_LENGTH), now);
        assert rows == [head] + rest;
        CoverWithHead(items, from, head, rest);
      } else {
        assert rows == rest;
        CoverSkipping(items, from, rest);
      }
    }
  }

  lemma CoverWithHead(items: seq<Element>, from: nat, head: ChunkRow, rest: seq<ChunkRow>)
    requires from < |items| && head.chunkIndex == from
    requires CoversKept(items, from + 1, rest)
    ensures CoversKept(items, from, [head] + rest)
  {
    var rows := [head] + rest;
    forall i | from <= i < |items| && Keeps(items[i])
      ensures exists j | 0 <= j < |rows| :: rows[j].chunkIndex == i
    {
      if i == from {
        assert rows[0].chunkIndex == i;
      } else {
        var j :| 0 <= j < |rest| && rest[j].chunkIndex == i;
        assert rows[j + 1].chunkIndex == i;
      }
    }
  }

  lemma CoverSkipping(items: seq<Element>, from: nat, rest: seq<ChunkRow>)
    requires from < |items| && !Keeps(items[from])
    requires CoversKept(items, from + 1, rest)
    ensures CoversKept(items, from, rest)
  {
  }

  /** The ids of a batch of rows, in order. */
  function IdsOf(rows: seq<ChunkRow>): (ids: seq<nat>)
    ensures |ids| == |rows| && forall j | 0 <= j < |rows| :: ids[j] == rows[j].id
  {
    seq(|rows|, j requires 0 <= j < |rows| => rows[j].id)
  }

  /** `rows` is exactly the batch insert_chunks writes for `items` when the last chunk id
      handed out is `last`: one row per kept element and none for the others, in input
      order, each recording its element's position, text and snippet, with consecutive ids. */
  ghost predicate IsBatchFor(items: seq<Element>, urlId: nat, now: Timestamp, last: nat, rows: seq<ChunkRow>) {
    && |rows| == CountKept(items)
    && (forall j | 0 <= j < |rows| :: rows[j].id == last + 1 + j)
    && (forall j | 0 <= j < |rows| :: RowFor(items, urlId, now, rows[j]))
    && RowsInOrder(rows)
    && CoversKept(items, 0, rows)
  }

  lemma NewRowsIsBatch(items: seq<Element>, urlId: nat, last: nat, now: Timestamp)
    ensures IsBatchFor(items, urlId, now, last, NewRows(items, 0, urlId, last, now))
  {
    assert items[0..] == items;
    NewRowsInOrder(items, 0, urlId, last, now);
    NewRowsCoverKept(items, 0, urlId, last, now);
  }

  /** `ins` is `s` with a batch for `items` appended to `chunks`, and `ins.ids` are the
      batch's ids in order. */
  ghost predicate AppendsBatch(s: Store, url: string, items: seq<Element>, now: Timestamp, ins: Inserted)
    requires url in s.urls
  {
    && |s.chunks| <= |ins.store.chunks|
    && ins.store.chunks[..|s.chunks|] == s.chunks
    && IsBatchFor(items, s.urls[url].id, now, s.chunkSeq, ins.store.chunks[|s.chunks|..])
    && ins.ids == IdsOf(ins.store.chunks[|s.chunks|..])
  }

  /** insert_chunks: for a registered URL, appends one row per element that is a non-blank
      `str` (skipping everything else), sets the URL's chunk_count to the length of the
      whole input, and returns the new ids, ascending and above every id handed out before;
      for an unregistered URL it raises ValueError and writes nothing. */
  function InsertChunks(s: Store, url: string, items: seq<Element>, now: Timestamp): (r: Result<Inserted, Error>)
    ensures r.Failure? <==> url !in s.urls
    ensures r.Failure? ==> r.error == UrlNotFound(url)
    ensures r.Success? ==> AppendsBatch(s, url, items, now, r.value)
    ensures r.Success? ==> |r.value.ids| == CountKept(items)
    ensures r.Success? ==> forall j, k | 0 <= j < k < |r.value.ids| :: r.value.ids[j] < r.value.ids[k]
    ensures r.Success? ==> forall j | 0 <= j < |r.value.ids| :: s.chunkSeq < r.value.ids[j]
    ensures r.Success? ==>
      && r.value.store.urls.Keys == s.urls.Keys
      && r.value.store.urls[url] == s.urls[url].(chunkCount := Some(|items|))
      && (forall u | u in s.urls && u != url :: r.value.store.urls[u] == s.urls[u])
    ensures r.Success? ==> r.value.store.urlSeq == s.urlSeq && r.value.store.chunkSeq == s.chunkSeq + |r.value.ids|
    ensures r.Success? && Valid(s) ==> Valid(r.value.store)
    ensures r.Success? && Valid(s) ==>
      forall i, j | 0 <= i < |s.chunks| && 0 <= j < |r.value.ids| :: s.chunks[i].id < r.value.ids[j]
  {
    if url !in s.urls then
      Failure(UrlNotFound(url))
    else
      var row := s.urls[url];
      var rows := NewRows(items, 0, row.id, s.chunkSeq, now);
      NewRowsIsBatch(items, row.id, s.chunkSeq, now);
      var s' := Store(s.urls[url := row.(chunkCount := Some(|items|))], s.chunks + rows, s.urlSeq, s.chunkSeq + |rows|);
      assert s'.chunks[..|s.chunks|] == s.chunks && s'.chunks[|s.chunks|..] == rows;
      InsertChunksKeepsValid(s, url, items, now, rows, s');
      Success(Inserted(s', IdsOf(rows)))
  }

  lemma InsertChunksKeepsValid(s: Store, url: string, items: seq<Element>, now: Timestamp, rows: seq<ChunkRow>, s': Store)
    requires url in s.urls
    requires forall j | 0 <= j < |rows| :: rows[j].id == s.chunkSeq + 1 + j
    requires forall j | 0 <= j < |rows| :: RowFor(items, s.urls[url].id, now, rows[j])
    requires s' == Store(s.urls[url := s.urls[url].(chunkCount := Some(|items|))], s.chunks + rows, s.urlSeq, s.chunkSeq + |rows|)
    ensures Valid(s) ==> Valid(s')
  {
    if Valid(s) {
      forall i | 0 <= i < |s'.chunks|
        ensures HasUrlId(s', s'.chunks[i].urlId) && WellFormedChunk(s'.chunks[i])
      {
        if i < |s.chunks| {
          var u :| u in s.urls && s.urls[u].id == s.chunks[i].urlId;
          assert s'.urls[u].id == s.urls[u].id;
        } else {
          assert s'.chunks[i] == rows[i - |s.chunks|];
          assert s'.urls[url].id == s.urls[url].id;
        }
      }
    }
  }

  // ---------------------------------------------------------------------------
  // update_url_status
  // ---------------------------------------------------------------------------

  /** The row after update_url_status's UPDATE, by status. */
  function StatusRow(row: UrlRow, status: string, chunkCount: Option<int>, errorMessage: Option<string>, now: Timestamp): UrlRow {
    if status == IN_PROGRESS then row.(status := status, startedAt := Some(now))
    else if status == COMPLETED then row.(status := status, completedAt := Some(now), chunkCount := chunkCount)
    else if status == FAILED then row.(status := status, completedAt := Some(now), errorMessage := errorMessage)
    else row.(status := status)
  }

  /** update_url_status: `UPDATE urls SET … WHERE url=?` with the column list chosen by the
      status. Only the named URL's row can change, never its id or submission time; an
      unknown URL matches no row. */
  function UpdateUrlStatus(s: Store, url: string, status: string, chunkCount: Option<int>, errorMessage: Option<string>, now: Timestamp): (r: Store)
    ensures url !in s.urls ==> r == s
    ensures r.chunks == s.chunks && r.urlSeq == s.urlSeq && r.chunkSeq == s.chunkSeq
    ensures r.urls.Keys == s.urls.Keys
    ensures forall u | u in s.urls && u != url :: r.urls[u] == s.urls[u]
    ensures url in s.urls ==>
      var old_ := s.urls[url];
      var new_ := r.urls[url];
      && new_.id == old_.id && new_.submittedAt == old_.submittedAt && new_.status == status
      && new_.startedAt == (if status == IN_PROGRESS then Some(now) else old_.startedAt)
      && new_.completedAt == (if status == COMPLETED || status == FAILED then Some(now) else old_.completedAt)
      && new_.chunkCount == (if status == COMPLETED then chunkCount else old_.chunkCount)
      && new_.errorMessage == (if status == FAILED then errorMessage else old_.errorMessage)
    ensures Valid(s) ==> Valid(r)
  {
    if url !in s.urls then s
    else
      var s' := s.(urls := s.urls[url := StatusRow(s.urls[url], status, chunkCount, errorMessage, now)]);
      UpdateKeepsValid(s, url, s');
      s'
  }

  lemma UpdateKeepsValid(s: Store, url: string, s': Store)
    requires url in s.urls && url in s'.urls && s'.urls.Keys == s.urls.Keys
    requires s'.chunks == s.chunks && s'.urlSeq == s.urlSeq && s'.chunkSeq == s.chunkSeq
    requires forall u | u in s.urls :: s'.urls[u].id == s.urls[u].id
    ensures Valid(s) ==> Valid(s')
  {
    if Valid(s) {
      forall i | 0 <= i < |s'.chunks|
        ensures HasUrlId(s', s'.chunks[i].urlId)
      {
        var u :| u in s.urls && s.urls[u].id == s.chunks[i].urlId;
        assert s'.urls[u].id == s.urls[u].id;
      }
    }
  }

  // ---------------------------------------------------------------------------
  // get_chunks_from_db
  // ---------------------------------------------------------------------------

  function AsRecord(c: ChunkRow): ChunkRecord {
    ChunkRecord(c.id, c.chunkIndex, c.text, c.snippet)
  }

  /** `rec` is the record of some stored row. */
  ghost predicate Stored(chunks: seq<ChunkRow>, rec: ChunkRecord) {
    exists i | 0 <= i < |chunks| :: rec == AsRecord(chunks[i])
  }

  /** Chunk ids strictly ascending in rowid order, as AUTOINCREMENT hands them out. */
  predicate ChunkIdsAscending(chunks: seq<ChunkRow>) {
    forall i, j | 0 <= i < j < |chunks| :: chunks[i].id < chunks[j].id
  }

  /** Every record is the record of a stored row whose id is among `ids`. */
  ghost predicate DrawnFrom(chunks: seq<ChunkRow>, ids: seq<int>, r: seq<ChunkRecord>) {
    forall k | 0 <= k < |r| :: r[k].faissId as int in ids && Stored(chunks, r[k])
  }

  /** Every stored row whose id is among `ids` has its record in `r`. */
  predicate IncludesAll(chunks: seq<ChunkRow>, ids: seq<int>, r: seq<ChunkRecord>) {
    forall i | 0 <= i < |chunks| && chunks[i].id as int in ids :: AsRecord(chunks[i]) in r
  }

  /** The rows of `SELECT … FROM chunks WHERE id IN (…)`, in rowid order. */
  function Select(chunks: seq<ChunkRow>, ids: seq<int>): (r: seq<ChunkRecord>)
    ensures DrawnFrom(chunks, ids, r)
    ensures IncludesAll(chunks, ids, r)
    ensures ChunkIdsAscending(chunks) ==> IdsAscending(r)
  {
    if |chunks| == 0 then []
    else
      var rest := Select(chunks[1..], ids);
      var r := if chunks[0].id as int in ids then [AsRecord(chunks[0])] + rest else rest;
      SelectCons(chunks, ids, rest, r);
      r
  }

  /** One step of the scan: the first row joins the rows selected from the others when its
      id is listed. */
  lemma SelectCons(chunks: seq<ChunkRow>, ids: seq<int>, rest: seq<ChunkRecord>, r: seq<ChunkRecord>)
    requires |chunks| > 0
    requires DrawnFrom(chunks[1..], ids, rest) && IncludesAll(chunks[1..], ids, rest)
    requires ChunkIdsAscending(chunks[1..]) ==> IdsAscending(rest)
    requires r == if chunks[0].id as int in ids then [AsRecord(chunks[0])] + rest else rest
    ensures DrawnFrom(chunks, ids, r) && IncludesAll(chunks, ids, r)
    ensures ChunkIdsAscending(chunks) ==> IdsAscending(r)
  {
    SelectConsIncludes(chunks, ids, rest, r);
    SelectConsDrawn(chunks, ids, rest, r);
    if ChunkIdsAscending(chunks) {
      SelectTail(chunks, ids, rest);
      assert ChunkIdsAscending(chunks[1..]) by {
        forall i, j | 0 <= i < j < |chunks| - 1
          ensures chunks[1..][i].id < chunks[1..][j].id
        {
          assert chunks[1..][i] == chunks[i + 1] && chunks[1..][j] == chunks[j + 1];
        }
      }
      if chunks[0].id as int in ids {
        ConsAscending(AsRecord(chunks[0]), rest);
      }
    }
  }

  lemma SelectConsIncludes(chunks: seq<ChunkRow>, ids: seq<int>, rest: seq<ChunkRecord>, r: seq<ChunkRecord>)
    requires |chunks| > 0
    requires IncludesAll(chunks[1..], ids, rest)
    requires r == if chunks[0].id as int in ids then [AsRecord(chunks[0])] + rest else rest
    ensures IncludesAll(chunks, ids, r)
  {
    forall i | 0 <= i < |chunks| && chunks[i].id as int in ids
      ensures AsRecord(chunks[i]) in r
    {
      if i > 0 {
        assert chunks[i] == chunks[1..][i - 1];
      } else {
        assert r[0] == AsRecord(chunks[0]);
      }
    }
  }

  lemma SelectConsDrawn(chunks: seq<ChunkRow>, ids: seq<int>, rest: seq<ChunkRecord>, r: seq<ChunkRecord>)
    requires |chunks| > 0
    requires DrawnFrom(chunks[1..], ids, rest)
    requires r == if chunks[0].id as int in ids then [AsRecord(chunks[0])] + rest else rest
    ensures DrawnFrom(chunks, ids, r)
  {
    SelectTail(chunks, ids, rest);
    forall k | 0 <= k < |r|
      ensures r[k].faissId as int in ids && Stored(chunks, r[k])
    {
      if chunks[0].id as int in ids && k == 0 {
        assert r[0] == AsRecord(chunks[0]);
      } else if chunks[0].id as int in ids {
        assert r[k] == rest[k - 1];
      }
    }
  }

  lemma SelectTail(chunks: seq<ChunkRow>, ids: seq<int>, rest: seq<ChunkRecord>)
    requires |chunks| > 0
    requires forall k | 0 <= k < |rest| :: Stored(chunks[1..], rest[k])
    ensures forall k | 0 <= k < |rest| :: Stored(chunks, rest[k])
    ensures ChunkIdsAscending(chunks) ==> forall k | 0 <= k < |rest| :: chunks[0].id < rest[k].faissId
  {
    forall k | 0 <= k < |rest|
      ensures Stored(chunks, rest[k])
      ensures ChunkIdsAscending(chunks) ==> chunks[0].id < rest[k].faissId
    {
      var i :| 0 <= i < |chunks[1..]| && rest[k] == AsRecord(chunks[1..][i]);
      assert rest[k] == AsRecord(chunks[i + 1]);
    }
  }

  predicate IdsAscending(rs: seq<ChunkRecord>) {
    forall a, b | 0 <= a < b < |rs| :: rs[a].faissId < rs[b].faissId
  }

  lemma ConsAscending(x: ChunkRecord, rest: seq<ChunkRecord>)
    requires IdsAscending(rest) && forall k | 0 <= k < |rest| :: x.faissId < rest[k].faissId
    ensures IdsAscending([x] + rest)
  {
    var r := [x] + rest;
    forall a, b | 0 <= a < b < |r|
      ensures r[a].faissId < r[b].faissId
    {
      assert r[b] == rest[b - 1];
      if a > 0 {
        assert r[a] == rest[a - 1];
      }
    }
  }

  predicate DistinctIds(rs: seq<ChunkRecord>) {
    forall a, b | 0 <= a < b < |rs| :: rs[a].faissId != rs[b].faissId
  }

  /** Non-decreasing `chunk_index`: what `chunks.sort(key=lambda x: x["chunk_index"])` promises. */
  predicate SortedByIndex(rs: seq<ChunkRecord>) {
    forall a, b | 0 <= a < b < |rs| :: rs[a].chunkIndex <= rs[b].chunkIndex
  }

  /** `a` precedes `b` in (`chunk_index`, id) order. */
  predicate Before(a: ChunkRecord, b: ChunkRecord) {
    a.chunkIndex < b.chunkIndex || (a.chunkIndex == b.chunkIndex && a.faissId < b.faissId)
  }

  /** Strictly ordered by (`chunk_index`, id): a stable sort by `chunk_index` of rows in id order. */
  predicate SortedByIndexThenId(rs: seq<ChunkRecord>) {
    forall a, b | 0 <= a < b < |rs| :: Before(rs[a], rs[b])
  }

  lemma SortedCons(h: ChunkRecord, t: seq<ChunkRecord>)
    ensures SortedByIndex(t) && (|t| == 0 || h.chunkIndex <= t[0].chunkIndex) ==> SortedByIndex([h] + t)
  {
    if SortedByIndex(t) && (|t| == 0 || h.chunkIndex <= t[0].chunkIndex) {
      var r := [h] + t;
      forall a, b | 0 <= a < b < |r|
        ensures r[a].chunkIndex <= r[b].chunkIndex
      {
        assert r[b] == t[b - 1];
        if a == 0 {
          if b > 1 { assert t[0].chunkIndex <= t[b - 1].chunkIndex; }
        } else {
          assert r[a] == t[a - 1];
        }
      }
    }
  }

  lemma SortedByIndexThenIdCons(h: ChunkRecord, t: seq<ChunkRecord>)
    ensures SortedByIndexThenId(t) && (|t| == 0 || Before(h, t[0])) ==> SortedByIndexThenId([h] + t)
  {
    if SortedByIndexThenId(t) && (|t| == 0 || Before(h, t[0])) {
      var r := [h] + t;
      forall a, b | 0 <= a < b < |r|
        ensures Before(r[a], r[b])
      {
        assert r[b] == t[b - 1];
        if a == 0 {
          if b > 1 { assert Before(t[0], t[b - 1]); }
        } else {
          assert r[a] == t[a - 1];
        }
      }
    }
  }

  lemma DistinctCons(h: ChunkRecord, t: seq<ChunkRecord>)
    ensures DistinctIds(t) && (forall k | 0 <= k < |t| :: h.faissId != t[k].faissId) ==> DistinctIds([h] + t)
  {
    if DistinctIds(t) && (forall k | 0 <= k < |t| :: h.faissId != t[k].faissId) {
      var r := [h] + t;
      forall a, b | 0 <= a < b < |r|
        ensures r[a].faissId != r[b].faissId
      {
        assert r[b] == t[b - 1];
        if a > 0 { assert r[a] == t[a - 1]; }
      }
    }
  }

  /** Inserts `x` before the first element whose `chunk_index` is not smaller, so `x` stays
      ahead of the elements with an equal key that followed it in the input. */
  function Insert(x: ChunkRecord, rs: seq<ChunkRecord>): (r: seq<ChunkRecord>)
    ensures multiset(r) == multiset(rs) + multiset{x}
    ensures |r| == |rs| + 1
    ensures r[0] == x || (|rs| > 0 && r[0] == rs[0])
    ensures forall k | 0 <= k < |r| :: r[k] == x || r[k] in rs
  {
    if |rs| == 0 || x.chunkIndex <= rs[0].chunkIndex then
      [x] + rs
    else
      var tail := Insert(x, rs[1..]);
      assert rs == [rs[0]] + rs[1..];
      [rs[0]] + tail
  }

  lemma {:induction false} InsertKeepsSorted(x: ChunkRecord, rs: seq<ChunkRecord>)
    ensures SortedByIndex(rs) ==> SortedByIndex(Insert(x, rs))
  {
    if |rs| == 0 || x.chunkIndex <= rs[0].chunkIndex {
      SortedCons(x, rs);
    } else {
      InsertKeepsSorted(x, rs[1..]);
      SortedCons(rs[0], Insert(x, rs[1..]));
    }
  }

  lemma {:induction false} InsertKeepsSortedByIndexThenId(x: ChunkRecord, rs: seq<ChunkRecord>)
    ensures SortedByIndexThenId(rs) && (forall k | 0 <= k < |rs| :: x.faissId < rs[k].faissId) ==>
      SortedByIndexThenId(Insert(x, rs))
  {
    if |rs| == 0 || x.chunkIndex <= rs[0].chunkIndex {
      SortedByIndexThenIdCons(x, rs);
    } else {
      InsertKeepsSortedByIndexThenId(x, rs[1..]);
      SortedByIndexThenIdCons(rs[0], Insert(x, rs[1..]));
    }
  }

  lemma {:induction false} InsertKeepsDistinct(x: ChunkRecord, rs: seq<ChunkRecord>)
    ensures DistinctIds(rs) && (forall k | 0 <= k < |rs| :: x.faissId != rs[k].faissId) ==>
      DistinctIds(Insert(x, rs))
  {
    if |rs| == 0 || x.chunkIndex <= rs[0].chunkIndex {
      DistinctCons(x, rs);
    } else {
      InsertKeepsDistinct(x, rs[1..]);
      DistinctCons(rs[0], Insert(x, rs[1..]));
    }
  }

  /** A stable insertion sort by `chunk_index`: the same permutation Python's stable
      `list.sort` produces (`SortByChunkIndexOrders` states the order it establishes). */
  function SortByChunkIndex(rs: seq<ChunkRecord>): (r: seq<ChunkRecord>)
    ensures multiset(r) == multiset(rs)
    ensures |r| == |rs|
    ensures forall k | 0 <= k < |r| :: r[k] in rs
  {
    if |rs| == 0 then []
    else
      assert rs == [rs[0]] + rs[1..];
      Insert(rs[0], SortByChunkIndex(rs[1..]))
  }

  /** The sort orders by `chunk_index`; applied to rows in ascending id order, ties keep
      ascending id order and no id repeats. */
  lemma {:induction false} SortByChunkIndexOrders(rs: seq<ChunkRecord>)
    ensures SortedByIndex(SortByChunkIndex(rs))
    ensures IdsAscending(rs) ==> SortedByIndexThenId(SortByChunkIndex(rs)) && DistinctIds(SortByChunkIndex(rs))
  {
    if |rs| > 0 {
      var tail := SortByChunkIndex(rs[1..]);
      assert SortByChunkIndex(rs) == Insert(rs[0], tail);
      SortByChunkIndexOrders(rs[1..]);
      InsertKeepsSorted(rs[0], tail);
      if IdsAscending(rs) {
        AscendingTail(rs);
        TailAfterHead(rs, tail);
        InsertKeepsSortedByIndexThenId(rs[0], tail);
        InsertKeepsDistinct(rs[0], tail);
      }
    }
  }

  lemma AscendingTail(rs: seq<ChunkRecord>)
    requires |rs| > 0 && IdsAscending(rs)
    ensures IdsAscending(rs[1..])
  {
    forall a, b | 0 <= a < b < |rs| - 1
      ensures rs[1..][a].faissId < rs[1..][b].faissId
    {
      assert rs[1..][a] == rs[a + 1] && rs[1..][b] == rs[b + 1];
    }
  }

  lemma TailAfterHead(rs: seq<ChunkRecord>, tail: seq<ChunkRecord>)
    requires |rs| > 0
    requires forall k | 0 <= k < |tail| :: tail[k] in rs[1..]
    ensures IdsAscending(rs) ==> forall k | 0 <= k < |tail| :: rs[0].faissId < tail[k].faissId
  {
    if IdsAscending(rs) {
      forall k | 0 <= k < |tail|
        ensures rs[0].faissId < tail[k].faissId
      {
        var i :| 0 <= i < |rs[1..]| && rs[1..][i] == tail[k];
        assert rs[i + 1] == tail[k];
      }
    }
  }

  /** get_chunks_from_db: `[]` for an empty id list; otherwise exactly the stored rows whose
      id is in the list, each once, ordered by `chunk_index` (ties by id). Ids with no row
      are dropped, so there are never more records than ids. */
  function GetChunksFromDb(s: Store, ids: seq<int>): (r: seq<ChunkRecord>)
    ensures |ids| == 0 ==> r == []
    ensures DrawnFrom(s.chunks, ids, r)
    ensures IncludesAll(s.chunks, ids, r)
    ensures SortedByIndex(r)
    ensures Valid(s) ==> SortedByIndexThenId(r) && DistinctIds(r)
    ensures Valid(s) ==> |r| <= |ids|
  {
    if |ids| == 0 then []
    else
      SelectThenSort(s, ids);
      SortByChunkIndex(Select(s.chunks, ids))
  }

  lemma SelectThenSort(s: Store, ids: seq<int>)
    ensures var r := SortByChunkIndex(Select(s.chunks, ids));
      && DrawnFrom(s.chunks, ids, r)
      && IncludesAll(s.chunks, ids, r)
      && SortedByIndex(r)
      && (Valid(s) ==> SortedByIndexThenId(r) && DistinctIds(r))
      && (Valid(s) ==> |r| <= |ids|)
  {
    var selected := Select(s.chunks, ids);
    var r := SortByChunkIndex(selected);
    SortByChunkIndexOrders(selected);
    SortedKeepsMembers(selected, r);
    DistinctWithinIsBounded(r, ids);
  }

  lemma SortedKeepsMembers(a: seq<ChunkRecord>, b: seq<ChunkRecord>)
    requires multiset(a) == multiset(b)
    ensures forall x :: x in a <==> x in b
  {
    forall x
      ensures x in a <==> x in b
    {
      assert x in a <==> x in multiset(a);
      assert x in b <==> x in multiset(b);
    }
  }

  /** Records with distinct ids, all drawn from `ids`, are no more numerous than `ids`. */
  lemma DistinctWithinIsBounded(rs: seq<ChunkRecord>, ids: seq<int>)
    requires forall k | 0 <= k < |rs| :: rs[k].faissId as int in ids
    ensures DistinctIds(rs) ==> |rs| <= |ids|
  {
    if !DistinctIds(rs) {
      return;
    }
    var got := set k | 0 <= k < |rs| :: rs[k].faissId as int;
    var all := set i | 0 <= i < |ids| :: ids[i];
    DistinctImageSize(rs);
    assert got <= all;
    SetOfSeqSize(ids);
    SubsetSize(got, all);
  }

  lemma SubsetSize(a: set<int>, b: set<int>)
    requires a <= b
    ensures |a| <= |b|
  {
    assert b == a + (b - a);
    assert a * (b - a) == {};
  }

  lemma {:induction false} DistinctImageSize(rs: seq<ChunkRecord>)
    requires DistinctIds(rs)
    ensures |set k | 0 <= k < |rs| :: rs[k].faissId as int| == |rs|
  {
    if |rs| > 0 {
      var n := |rs| - 1;
      var front := rs[..n];
      assert DistinctIds(front);
      DistinctImageSize(front);
      var sf := set k | 0 <= k < |front| :: front[k].faissId as int;
      var sa := set k | 0 <= k < |rs| :: rs[k].faissId as int;
      assert sa == sf + {rs[n].faissId as int};
      assert rs[n].faissId as int !in sf;
    }
  }

  lemma {:induction false} SetOfSeqSize(xs: seq<int>)
    ensures |set i | 0 <= i < |xs| :: xs[i]| <= |xs|
  {
    if |xs| > 0 {
      var n := |xs| - 1;
      SetOfSeqSize(xs[..n]);
      var sf := set i | 0 <= i < |xs[..n]| :: xs[..n][i];
      var sa := set i | 0 <= i < |xs| :: xs[i];
      assert sa == sf + {xs[n]};
    }
  }

  // ---------------------------------------------------------------------------
  // Round trip: insert_chunks, then get_chunks_from_db on the returned ids
  // ---------------------------------------------------------------------------

  /** The records of a run of rows, in the same order. */
  function Records(rows: seq<ChunkRow>): (r: seq<ChunkRecord>)
    ensures |r| == |rows| && forall j | 0 <= j < |rows| :: r[j] == AsRecord(rows[j])
  {
    seq(|rows|, j requires 0 <= j < |rows| => AsRecord(rows[j]))
  }

  lemma {:induction false} SelectConcat(a: seq<ChunkRow>, b: seq<ChunkRow>, ids: seq<int>)
    ensures Select(a + b, ids) == Select(a, ids) + Select(b, ids)
  {
    if |a| == 0 {
      assert a + b == b;
    } else {
      assert (a + b)[0] == a[0];
      assert (a + b)[1..] == a[1..] + b;
      SelectConcat(a[1..], b, ids);
    }
  }

  lemma {:induction false} SelectNone(a: seq<ChunkRow>, ids: seq<int>)
    requires forall i | 0 <= i < |a| :: a[i].id as int !in ids
    ensures Select(a, ids) == []
  {
    if |a| > 0 {
      SelectNone(a[1..], ids);
    }
  }

  lemma {:induction false} SelectEvery(a: seq<ChunkRow>, ids: seq<int>)
    requires forall i | 0 <= i < |a| :: a[i].id as int in ids
    ensures Select(a, ids) == Records(a)
  {
    if |a| > 0 {
      SelectEvery(a[1..], ids);
      assert Records(a) == [AsRecord(a[0])] + Records(a[1..]);
    }
  }

  /** Sorting what is already in `chunk_index` order changes nothing (the sort is stable). */
  lemma {:induction false} SortKeepsSorted(rs: seq<ChunkRecord>)
    requires SortedByIndex(rs)
    ensures SortByChunkIndex(rs) == rs
  {
    if |rs| > 0 {
      assert SortedByIndex(rs[1..]);
      SortKeepsSorted(rs[1..]);
      assert rs == [rs[0]] + rs[1..];
    }
  }

  /** Fetching a batch by the ids insert_chunks returned gives the batch back whole and
      unchanged, in input order: every kept element's text, position and snippet under its
      id, and no row of any earlier batch. */
  lemma FetchAfterInsert(s: Store, url: string, items: seq<Element>, now: Timestamp)
    requires Valid(s) && url in s.urls
    ensures InsertChunks(s, url, items, now).Success?
    ensures var ins := InsertChunks(s, url, items, now).value;
      GetChunksFromDb(ins.store, ins.ids) == Records(ins.store.chunks[|s.chunks|..])
  {
    var ins := InsertChunks(s, url, items, now).value;
    var rows := ins.store.chunks[|s.chunks|..];
    assert ins.store.chunks == s.chunks + rows;
    if |ins.ids| > 0 {
      FetchBatch(s.chunks, rows, ins.ids);
    }
  }

  /** Selecting the ids of a batch appended after rows with smaller ids, then sorting,
      gives the batch's records in order. */
  lemma FetchBatch(before: seq<ChunkRow>, rows: seq<ChunkRow>, ids: seq<int>)
    requires |ids| == |rows| && forall j | 0 <= j < |rows| :: ids[j] == rows[j].id as int
    requires forall i, j | 0 <= i < |before| && 0 <= j < |ids| :: before[i].id < ids[j]
    requires RowsInOrder(rows)
    ensures SortByChunkIndex(Select(before + rows, ids)) == Records(rows)
  {
    forall i | 0 <= i < |before|
      ensures before[i].id as int !in ids
    {
      assert forall j | 0 <= j < |ids| :: before[i].id < ids[j];
    }
    forall j | 0 <= j < |rows|
      ensures rows[j].id as int in ids
    {
      assert ids[j] == rows[j].id;
    }
    SelectConcat(before, rows, ids);
    SelectNone(before, ids);
    SelectEvery(rows, ids);
    assert Select(before + rows, ids) == Records(rows);
    SortKeepsSorted(Records(rows));
  }
}

=== FILE: prompts.dfy ===
/** generate_user_prompt of prompts.py: the user prompt built from a query and the chunks
    retrieved for it. */
module Prompts {
  import opened PyStr

  /** A retrieved chunk as the dict the pipeline hands over; only its "text" entry is read. */
  type Record = map<string, string>

  const QUERY_LABEL := "User Query:\n"
  const REFERENCE_HEADER := "Reference Material (Chunks):"
  const CLOSING := "\nBased on the above chunks, provide a complete answer to the user query."

  /** `chunk.get("text", "").strip()`. */
  function ChunkText(r: Record): string {
    Strip(if "text" in r then r["text"] else "")
  }

  /** `f"Chunk {i}: {text}"`. */
  function ChunkLine(i: nat, r: Record): string {
    "Chunk " + NatToString(i) + ": " + ChunkText(r)
  }

  /** One line per chunk, numbered from `start` in retrieval order. */
  function ChunkLines(results: seq<Record>, start: nat): (r: seq<string>)
    ensures |r| == |results| && forall k | 0 <= k < |results| :: r[k] == ChunkLine(start + k, results[k])
  {
    Numbered(ChunkLine, results, start)
  }

  /** `line` applied to each record and its number, counting from `start`. */
  function Numbered(line: (nat, Record) -> string, results: seq<Record>, start: nat): (r: seq<string>)
    decreases |results|
    ensures |r| == |results| && forall k | 0 <= k < |results| :: r[k] == line(start + k, results[k])
  {
    if |results| == 0 then []
    else
      var rest := Numbered(line, results[1..], start + 1);
      var r := [line(start, results[0])] + rest;
      forall k | 1 <= k < |results|
        ensures r[k] == line(start + k, results[k])
      {
        assert r[k] == rest[k - 1] == line(start + 1 + (k - 1), results[1..][k - 1]);
      }
      r
  }

  /** `prompt_lines` once the loop has run: the query block, the header, a line per chunk
      numbered from 1, and the closing instruction. */
  function PromptLines(results: seq<Record>, query: string): (r: seq<string>)
    ensures |r| == |results| + 3
    ensures r[0] == QUERY_LABEL + query + "\n" && r[1] == REFERENCE_HEADER && r[|r| - 1] == CLOSING
    ensures forall k | 0 <= k < |results| :: r[k + 2] == ChunkLine(k + 1, results[k])
  {
    var lines := ChunkLines(results, 1);
    Framed(QUERY_LABEL + query + "\n", REFERENCE_HEADER, lines, CLOSING);
    [QUERY_LABEL + query + "\n", REFERENCE_HEADER] + lines + [CLOSING]
  }

  /** generate_user_prompt: `"\n".join(prompt_lines)`. The prompt opens with the query and
      the header and closes with the instruction, and `GenerateUserPromptLayout` gives it
      line by line. */
  function GenerateUserPrompt(results: seq<Record>, query: string): (r: string)
    ensures |Opening(query)| <= |r| && r[..|Opening(query)|] == Opening(query)
    ensures |CLOSING| < |r| && r[|r| - |CLOSING| - 1] == '\n' && r[|r| - |CLOSING|..] == CLOSING
  {
    GenerateUserPromptLayout(results, query);
    var opening := Opening(query);
    var r := Join("\n", PromptLines(results, query));
    var section := Section(results, 1);
    assert r == opening + section + "\n" + CLOSING;
    Ends(opening, section, "\n", CLOSING);
    r
  }

  /** The query block, the blank line after it and the header. */
  function Opening(query: string): string {
    QUERY_LABEL + query + "\n" + "\n" + REFERENCE_HEADER
  }

  // ---------------------------------------------------------------------------
  // The prompt as a document
  // ---------------------------------------------------------------------------

  /** Each chunk line on a line of its own, numbered from `start`. */
  function Section(results: seq<Record>, start: nat): string
    decreases |results|
  {
    if |results| == 0 then ""
    else "\n" + ChunkLine(start, results[0]) + Section(results[1..], start + 1)
  }

  /** The prompt written out: the query block, a blank line (the query block's own line
      break and the separator), the header, the chunk lines, and the instruction after a
      blank line (its own leading line break). */
  function PromptLayout(results: seq<Record>, query: string): string {
    QUERY_LABEL + query + "\n" + "\n" + REFERENCE_HEADER + Section(results, 1) + "\n" + CLOSING
  }

  /** The joined lines are the written-out prompt. */
  lemma GenerateUserPromptLayout(results: seq<Record>, query: string)
    ensures Join("\n", PromptLines(results, query)) == PromptLayout(results, query)
  {
    var head := QUERY_LABEL + query + "\n";
    var lines := ChunkLines(results, 1);
    SplitFirst(head, REFERENCE_HEADER, lines, CLOSING);
    JoinCons("\n", head, [REFERENCE_HEADER] + lines + [CLOSING]);
    JoinSection(REFERENCE_HEADER, results, 1);
    Regroup(head, "\n", REFERENCE_HEADER, Section(results, 1), "\n", CLOSING);
  }

  /** Joining a line, the chunk lines and the instruction. */
  lemma {:induction false} JoinSection(first: string, results: seq<Record>, start: nat)
    decreases |results|
    ensures Join("\n", [first] + ChunkLines(results, start) + [CLOSING])
         == first + Section(results, start) + "\n" + CLOSING
  {
    var lines := ChunkLines(results, start);
    if |results| == 0 {
      assert [first] + lines + [CLOSING] == [first] + [CLOSING];
      JoinCons("\n", first, [CLOSING]);
    } else {
      var line := ChunkLine(start, results[0]);
      var later := ChunkLines(results[1..], start + 1);
      assert lines == [line] + later;
      SplitFirst(first, line, later, CLOSING);
      JoinCons("\n", first, [line] + later + [CLOSING]);
      JoinSection(line, results[1..], start + 1);
      Regroup(first, "\n", line, Section(results[1..], start + 1), "\n", CLOSING);
    }
  }

  /** Where the lines of a list framed by two lines before and one after sit. */
  lemma Framed(a: string, b: string, middle: seq<string>, z: string)
    ensures var r := [a, b] + middle + [z];
      |r| == |middle| + 3 && r[0] == a && r[1] == b && r[|r| - 1] == z
      && forall k | 0 <= k < |middle| :: r[k + 2] == middle[k]
  {
  }

  /** Taking the first line off a list of lines. */
  lemma SplitFirst(a: string, b: string, middle: seq<string>, z: string)
    ensures [a, b] + middle + [z] == [a] + ([b] + middle + [z])
    ensures [a] + ([b] + middle) + [z] == [a] + ([b] + middle + [z])
  {
  }

  /** Moving a line break from the front of one part to the end of the one before it. */
  lemma Regroup(a: string, b: string, c: string, d: string, e: string, f: string)
    ensures a + b + (c + d + e + f) == a + (b + c + d) + e + f
    ensures a + b + (c + d + e + f) == a + b + c + d + e + f
  {
  }

  /** The two ends of a string assembled from four parts. */
  lemma Ends(a: string, b: string, c: string, d: string)
    ensures (a + b + c + d)[..|a|] == a
    ensures |c| + |d| <= |a + b + c + d|
    ensures (a + b + c + d)[|a + b + c + d| - |d|..] == d
    ensures |c| == 1 ==> (a + b + c + d)[|a + b + c + d| - |d| - 1] == c[0]
  {
    assert a + b + c + d == a + (b + c + d);
    assert a + b + c + d == (a + b) + (c + d);
  }
}

=== FILE: pystr.dfy ===
/** The few Python `str` operations the pipeline relies on, with Python's semantics:
    `str.isspace`, `str.strip()`, slicing `s[:n]`, `str(n)` for a natural number and
    `sep.join(parts)`. Characters are Unicode scalar values, as Python's are code points. */
module PyStr {

  /** `c.isspace()`: the characters Python strips by default, i.e. those of bidirectional
      class WS, B or S or of category Zs. */
  predicate IsSpace(c: char) {
    || c == ' '
    || ('\t' <= c <= '\r')
    || ('\U{1C}' <= c <= '\U{1F}')
    || c == '\U{85}'
    || c == '\U{A0}'
    || c == '\U{1680}'
    || ('\U{2000}' <= c <= '\U{200A}')
    || c == '\U{2028}'
    || c == '\U{2029}'
    || c == '\U{202F}'
    || c == '\U{205F}'
    || c == '\U{3000}'
  }

  /** Every character of `s` is whitespace (vacuously true of ""). */
  predicate IsBlank(s: string) {
    forall c | c in s :: IsSpace(c)
  }

  /** `s.lstrip()`: the suffix left after dropping leading whitespace. */
  function LStrip(s: string): (r: string)
    ensures |r| <= |s| && r == s[|s| - |r|..]
    ensures IsBlank(s[..|s| - |r|])
    ensures r == [] || !IsSpace(r[0])
  {
    if |s| > 0 && IsSpace(s[0]) then
      var r := LStrip(s[1..]);
      assert s[1..][..|s| - 1 - |r|] == s[1..|s| - |r|];
      r
    else s
  }

  /** `s.rstrip()`: the prefix left after dropping trailing whitespace. */
  function RStrip(s: string): (r: string)
    ensures |r| <= |s| && r == s[..|r|]
    ensures IsBlank(s[|r|..])
    ensures r == [] || !IsSpace(r[|r| - 1])
  {
    if |s| > 0 && IsSpace(s[|s| - 1]) then
      var r := RStrip(s[..|s| - 1]);
      assert s[|r|..] == s[..|s| - 1][|r|..] + [s[|s| - 1]];
      r
    else s
  }

  /** `s.strip()`: empty exactly when `s` is blank; `StripIsSlice` shows it is what lies
      between two blank margins and `StripEnds` that it neither starts nor ends with
      whitespace. */
  function Strip(s: string): (r: string)
    ensures r == [] <==> IsBlank(s)
  {
    StripEmptyIffBlank(s);
    RStrip(LStrip(s))
  }

  lemma StripEmptyIffBlank(s: string)
    ensures RStrip(LStrip(s)) == [] <==> IsBlank(s)
  {
    StripEmptyOnlyIfBlank(s);
    StripNonEmptyOnlyIfNotBlank(s);
  }

  lemma {:induction false} StripEmptyOnlyIfBlank(s: string)
    ensures RStrip(LStrip(s)) == [] ==> IsBlank(s)
  {
    var l := LStrip(s);
    var r := RStrip(l);
    if r == [] {
      var i := |s| - |l|;
      assert IsBlank(l[0..]);
      assert l[0..] == l;
      assert IsBlank(s[..i]);
      assert l == s[i..];
      assert s == s[..i] + l;
    }
  }

  lemma {:induction false} StripNonEmptyOnlyIfNotBlank(s: string)
    ensures RStrip(LStrip(s)) != [] ==> !IsBlank(s)
  {
    var l := LStrip(s);
    var r := RStrip(l);
    var i := |s| - |l|;
    assert l == s[i..];
    if r != [] {
      assert l[0] == s[i];
    }
  }

  /** The stripped string is a slice of `s` with a blank margin on each side. */
  lemma StripIsSlice(s: string) returns (i: nat)
    ensures i + |Strip(s)| <= |s|
    ensures Strip(s) == s[i..i + |Strip(s)|]
    ensures IsBlank(s[..i]) && IsBlank(s[i + |Strip(s)|..])
  {
    var l := LStrip(s);
    var r := RStrip(l);
    i := |s| - |l|;
    SliceOfSuffix(s, i, |r|);
    assert s[i + |r|..] == l[|r|..];
  }

  lemma SliceOfSuffix(s: string, i: nat, n: nat)
    requires i + n <= |s|
    ensures s[i..][..n] == s[i..i + n]
  {
  }

  /** The stripped string neither starts nor ends with whitespace. */
  lemma StripEnds(s: string)
    ensures Strip(s) == [] || (!IsSpace(Strip(s)[0]) && !IsSpace(Strip(s)[|Strip(s)| - 1]))
  {
    var l := LStrip(s);
    var r := RStrip(l);
    if r != [] {
      assert r[0] == l[0];
    }
  }

  /** `s[:n]`: at most the first `n` characters. */
  function Prefix(s: string, n: nat): (r: string)
    ensures |r| == if |s| <= n then |s| else n
    ensures r == s[..|r|]
  {
    if |s| <= n then s else s[..n]
  }

  predicate IsDigit(c: char) {
    '0' <= c <= '9'
  }

  /** `str(n)` for a natural number: its decimal digits, most significant first, with no
      leading zero (`DecimalValue` reads it back). */
  function NatToString(n: nat): (r: string)
    ensures |r| > 0
    ensures forall i | 0 <= i < |r| :: IsDigit(r[i])
    ensures r[0] == '0' <==> n == 0
  {
    var d := ['0' + (n % 10) as char];
    if n < 10 then d else NatToString(n / 10) + d
  }

  /** The number a string of decimal digits denotes, as `int(s)` reads it. */
  function DecimalValue(s: string): nat
    requires forall i | 0 <= i < |s| :: IsDigit(s[i])
  {
    if |s| == 0 then 0
    else
      assert IsDigit(s[|s| - 1]);
      DecimalValue(s[..|s| - 1]) * 10 + (s[|s| - 1] as int - '0' as int)
  }

  /** `int(str(n)) == n`: the digits NatToString writes denote `n`. */
  lemma {:induction false} NatToStringReadsBack(n: nat)
    ensures DecimalValue(NatToString(n)) == n
  {
    if n >= 10 {
      NatToStringReadsBack(n / 10);
      var r := NatToString(n);
      assert r[..|r| - 1] == NatToString(n / 10);
    }
  }

  /** `sep.join(parts)`. */
  function Join(sep: string, parts: seq<string>): (r: string)
    ensures |parts| == 1 ==> r == parts[0]
  {
    if |parts| == 0 then ""
    else if |parts| == 1 then parts[0]
    else parts[0] + sep + Join(sep, parts[1..])
  }

  /** Joining a non-empty head onto a non-empty rest puts exactly one separator between them. */
  lemma JoinCons(sep: string, head: string, rest: seq<string>)
    requires |rest| > 0
    ensures Join(sep, [head] + rest) == head + sep + Join(sep, rest)
  {
    assert ([head] + rest)[1..] == rest;
  }
}

=== FILE: retrieval.dfy ===
/** query_rag_pipeline of get_closest_chunks.py: embed the query, load the index file,
    take the five nearest entries and fetch their chunks from the metadata store.

    The embedding model is a parameter, and the distances of the stored vectors to the
    query are given as a `Ranking` of the loaded index. */
module Retrieval {
  import opened Wrappers
  import opened Errors
  import opened MetadataStore
  import opened VectorIndex

  /** `[i[0] for i in results]`: the labels of the hits, in search order. */
  function HitIds(hits: seq<Hit>): (r: seq<int>)
    ensures |r| == |hits| && forall i | 0 <= i < |hits| :: r[i] == hits[i].id
  {
    seq(|hits|, i requires 0 <= i < |hits| => hits[i].id)
  }

  /** `id` labels one of the `DEFAULT_TOP_K` entries nearest the query. */
  ghost predicate AmongNearest(ix: Index, rk: Ranking, id: int)
    requires ValidRanking(ix, rk)
  {
    exists i | 0 <= i < DEFAULT_TOP_K && i < |rk.order| :: Label(ix, rk.order[i]) == id
  }

  /** query_rag_pipeline(query, FAISS_FILE, top_k, EMBED_DIM). The search always asks for
      five results whatever `top_k` says. It raises what the embedding model raises, fails
      when `np.array` cannot make a matrix of the model's vectors or when the query
      vector's length differs from the loaded index's dimension; otherwise it returns exactly the stored chunks
      whose ids label one of the five nearest entries, each once, ordered by
      chunk_index, and never more than five. */
  function QueryRagPipeline(store: Store, disk: Disk, embed: seq<string> -> Result<seq<Vector>, string>, query: string,
                            faissFile: string, topK: nat, embedDim: nat, rk: Ranking): (r: Result<seq<ChunkRecord>, Error>)
    requires ValidRanking(LoadFaissIndex(disk, faissFile, embedDim), rk)
    ensures embed([query]).Failure? ==> r == Failure(Raised(embed([query]).error))
    ensures embed([query]).Success? && !Rectangular(embed([query]).value) ==> r == Failure(RaggedEmbeddings)
    ensures var ix := LoadFaissIndex(disk, faissFile, embedDim);
      r.Success? <==> QueryEmbeds(embed, query, ix.dim)
    ensures r.Success? ==> SortedByIndex(r.value)
    ensures r.Success? ==> forall k | 0 <= k < |r.value| ::
      Stored(store.chunks, r.value[k]) && AmongNearest(LoadFaissIndex(disk, faissFile, embedDim), rk, r.value[k].faissId)
    ensures r.Success? ==> forall i | 0 <= i < |store.chunks| ::
      AmongNearest(LoadFaissIndex(disk, faissFile, embedDim), rk, store.chunks[i].id) ==> AsRecord(store.chunks[i]) in r.value
    ensures r.Success? && Valid(store) ==> |r.value| <= DEFAULT_TOP_K && DistinctIds(r.value)
  {
    var got := embed([query]);
    if got.Failure? then Failure(Raised(got.error))
    else if !Rectangular(got.value) then Failure(RaggedEmbeddings)
    else
      var queryEmbedding := Flatten(got.value);
      var ix := LoadFaissIndex(disk, faissFile, embedDim);
      var searched := SearchFaissIndex(ix, queryEmbedding, DEFAULT_TOP_K, rk);
      if searched.Failure? then Failure(searched.error)
      else
        var ids := HitIds(searched.value);
        NearestAreHits(ix, rk, searched.value);
        Success(GetChunksFromDb(store, ids))
  }

  /** The embedding model returns, without raising, vectors of one length that laid end to
      end make a query of dimension `dim`. */
  predicate QueryEmbeds(embed: seq<string> -> Result<seq<Vector>, string>, query: string, dim: nat) {
    var got := embed([query]);
    got.Success? && Rectangular(got.value) && |Flatten(got.value).values| == dim
  }

  /** The labels among the hits are exactly the labels of the five nearest entries, and the
      padding label -1. */
  lemma NearestAreHits(ix: Index, rk: Ranking, hits: seq<Hit>)
    requires ValidRanking(ix, rk)
    requires |hits| == DEFAULT_TOP_K
    requires forall i | 0 <= i < DEFAULT_TOP_K && i < |ix.entries| :: hits[i] == Hit(Label(ix, rk.order[i]), rk.distances[i])
    requires forall i | |ix.entries| <= i < DEFAULT_TOP_K :: hits[i] == Hit(NO_LABEL, FLOAT32_MAX)
    ensures forall id: int | id >= 0 :: id in HitIds(hits) <==> AmongNearest(ix, rk, id)
  {
    var ids := HitIds(hits);
    forall id: int | id >= 0
      ensures id in ids <==> AmongNearest(ix, rk, id)
    {
      if id in ids {
        var i :| 0 <= i < |ids| && ids[i] == id;
        assert i < |ix.entries|;
      }
      if AmongNearest(ix, rk, id) {
        var i :| 0 <= i < DEFAULT_TOP_K && i < |rk.order| && Label(ix, rk.order[i]) == id;
        assert ids[i] == id;
      }
    }
  }

  /** `top_k` has no effect: the search is always for five results. */
  lemma TopKIgnored(store: Store, disk: Disk, embed: seq<string> -> Result<seq<Vector>, string>, query: string,
                    faissFile: string, k1: nat, k2: nat, embedDim: nat, rk: Ranking)
    requires ValidRanking(LoadFaissIndex(disk, faissFile, embedDim), rk)
    ensures QueryRagPipeline(store, disk, embed, query, faissFile, k1, embedDim, rk)
         == QueryRagPipeline(store, disk, embed, query, faissFile, k2, embedDim, rk)
  {
  }

  /** With no index file, load_faiss_index gives an empty index of dimension EMBED_DIM; a
      query of that length finds only padding (-1), which names no chunk, so the answer
      is an empty list. */
  lemma MissingIndexFindsNothing(store: Store, disk: Disk, embed: seq<string> -> Result<seq<Vector>, string>, query: string,
                                 faissFile: string, topK: nat, embedDim: nat)
    requires faissFile !in disk
    requires QueryEmbeds(embed, query, embedDim)
    ensures ValidRanking(LoadFaissIndex(disk, faissFile, embedDim), Ranking([], []))
    ensures QueryRagPipeline(store, disk, embed, query, faissFile, topK, embedDim, Ranking([], [])) == Success([])
  {
    var ix := LoadFaissIndex(disk, faissFile, embedDim);
    var hits := SearchFaissIndex(ix, Flatten(embed([query]).value), DEFAULT_TOP_K, Ranking([], [])).value;
    var ids := HitIds(hits);
    assert forall i | 0 <= i < |ids| :: ids[i] == NO_LABEL;
    SelectNone(store.chunks, ids);
    assert GetChunksFromDb(store, ids) == SortByChunkIndex([]);
  }

  /** When every id in the index names a stored chunk (what the worker maintains), each of
      the five nearest entries comes back as a chunk. */
  lemma NearestAreResolved(store: Store, disk: Disk, embed: seq<string> -> Result<seq<Vector>, string>, query: string,
                           faissFile: string, topK: nat, embedDim: nat, rk: Ranking)
    requires ValidRanking(LoadFaissIndex(disk, faissFile, embedDim), rk)
    requires LoadFaissIndex(disk, faissFile, embedDim).kind == IdMap
    requires forall k | 0 <= k < |LoadFaissIndex(disk, faissFile, embedDim).entries| ::
      exists i | 0 <= i < |store.chunks| :: store.chunks[i].id as int == LoadFaissIndex(disk, faissFile, embedDim).entries[k].id
    requires QueryRagPipeline(store, disk, embed, query, faissFile, topK, embedDim, rk).Success?
    ensures var ix := LoadFaissIndex(disk, faissFile, embedDim);
      var r := QueryRagPipeline(store, disk, embed, query, faissFile, topK, embedDim, rk).value;
      forall i | 0 <= i < DEFAULT_TOP_K && i < |ix.entries| ::
        exists k | 0 <= k < |r| :: r[k].faissId as int == ix.entries[rk.order[i]].id
  {
    var ix := LoadFaissIndex(disk, faissFile, embedDim);
    var r := QueryRagPipeline(store, disk, embed, query, faissFile, topK, embedDim, rk).value;
    forall i | 0 <= i < DEFAULT_TOP_K && i < |ix.entries|
      ensures exists k | 0 <= k < |r| :: r[k].faissId as int == ix.entries[rk.order[i]].id
    {
      var id := ix.entries[rk.order[i]].id;
      var c :| 0 <= c < |store.chunks| && store.chunks[c].id as int == id;
      assert Label(ix, rk.order[i]) == id;
      assert AmongNearest(ix, rk, store.chunks[c].id);
      var rec := AsRecord(store.chunks[c]);
      assert rec in r;
      var k :| 0 <= k < |r| && r[k] == rec;
    }
  }
}

=== FILE: vector_index.dfy ===
/** The FAISS index of faiss_utils.py as an immutable value, and the index files on disk
    as a map from path to the index last written there.

    A stored vector is opaque: only its length (the dimension FAISS checks) matters. The
    distances FAISS computes are not modelled; a search is given them as a `Ranking` of the
    stored entries, nearest first, and the model states what FAISS does with it: how many
    hits come back, which labels they carry, and how missing results are padded. */
module VectorIndex {
  import opened Wrappers
  import opened Errors

  /** An embedding; FAISS stores its components as float32. */
  datatype Vector = Vector(values: seq<real>)

  /** `IndexFlatL2` labels a result by its insertion position; `IndexIDMap` wrapped around
      one labels it by the 64-bit id given to add_with_ids. */
  datatype Kind = FlatL2 | IdMap

  datatype Entry = Entry(id: int, vector: Vector)

  datatype Index = Index(kind: Kind, dim: nat, entries: seq<Entry>)

  /** The index files: path to the index `faiss.write_index` last wrote there. */
  type Disk = map<string, Index>

  /** A search result: `(int(idx), float(dist))`. */
  datatype Hit = Hit(id: int, distance: real)

  /** The outcome of create_faiss_index: the index it returns and the files after its save. */
  datatype Created = Created(disk: Disk, index: Index)

  /** Exact search's view of one query: `order` lists the entry positions nearest first and
      `distances` the matching squared L2 distances. */
  datatype Ranking = Ranking(order: seq<nat>, distances: seq<real>)

  const DEFAULT_INDEX_FILE := "faiss_index.idx"
  const DEFAULT_DIMENSION: nat := 384
  const DEFAULT_TOP_K: nat := 5

  /** The label FAISS reports for a result slot no stored vector fills. */
  const NO_LABEL: int := -1

  /** The distance FAISS reports for such a slot: the largest float32, FLT_MAX. */
  const FLOAT32_MAX: real := 340282346638528859811704183484516925440.0

  /** `rk` is what exact search can produce for `ix`: every stored entry exactly once,
      in order of non-decreasing distance, each distance a finite non-negative float32. */
  predicate ValidRanking(ix: Index, rk: Ranking) {
    && |rk.order| == |ix.entries| == |rk.distances|
    && (forall i | 0 <= i < |rk.order| :: rk.order[i] < |ix.entries|)
    && (forall i, j | 0 <= i < j < |rk.order| :: rk.order[i] != rk.order[j])
    && (forall i, j | 0 <= i < j < |rk.distances| :: rk.distances[i] <= rk.distances[j])
    && (forall i | 0 <= i < |rk.distances| :: 0.0 <= rk.distances[i] <= FLOAT32_MAX)
  }

  /** Every stored vector has the index's dimension. */
  predicate AllOfDimension(vs: seq<Vector>, dim: nat) {
    forall i | 0 <= i < |vs| :: |vs[i].values| == dim
  }

  /** The ids stored in an index, in insertion order. */
  function IdsIn(ix: Index): (r: seq<int>)
    ensures |r| == |ix.entries| && forall i | 0 <= i < |r| :: r[i] == ix.entries[i].id
  {
    seq(|ix.entries|, i requires 0 <= i < |ix.entries| => ix.entries[i].id)
  }

  // ---------------------------------------------------------------------------
  // save_faiss_index / load_faiss_index
  // ---------------------------------------------------------------------------

  /** save_faiss_index: the file at `path` now holds `ix`; every other file is untouched. */
  function SaveFaissIndex(disk: Disk, ix: Index, path: string): (r: Disk)
    ensures path in r && r[path] == ix
    ensures r.Keys == disk.Keys + {path}
    ensures forall p | p in disk && p != path :: r[p] == disk[p]
  {
    disk[path := ix]
  }

  /** load_faiss_index: the index stored at `path` if the file exists, otherwise a new empty
      plain `IndexFlatL2` of the requested dimension (which cannot take ids). Loading never
      writes a file. */
  function LoadFaissIndex(disk: Disk, path: string, dim: nat): (r: Index)
    ensures path in disk ==> r == disk[path]
    ensures path !in disk ==> r.kind == FlatL2 && r.dim == dim && r.entries == []
  {
    if path in disk then disk[path] else Index(FlatL2, dim, [])
  }

  /** Writing an index and reading it back gives the same index, whatever dimension the
      reader asks for and whatever was at that path before. */
  lemma LoadAfterSave(disk: Disk, ix: Index, path: string, dim: nat)
    ensures LoadFaissIndex(SaveFaissIndex(disk, ix, path), path, dim) == ix
  {
  }

  // ---------------------------------------------------------------------------
  // add_with_ids, add_embeddings_to_index, create_faiss_index
  // ---------------------------------------------------------------------------

  /** The entries `add_with_ids(embs, ids)` appends: the i-th vector under the i-th id. */
  function Pair(embs: seq<Vector>, ids: seq<int>): (r: seq<Entry>)
    requires |embs| == |ids|
    ensures |r| == |embs| && forall i | 0 <= i < |r| :: r[i] == Entry(ids[i], embs[i])
  {
    seq(|embs|, i requires 0 <= i < |embs| => Entry(ids[i], embs[i]))
  }

  /** `index.add_with_ids(x, ids)` of FAISS's Python wrapper, in its order of checks:
      `n, d = x.shape` fails on the one-dimensional array numpy makes of an empty list;
      `assert d == self.d`; `assert ids.shape == (n,)`; and a plain `IndexFlatL2` refuses
      ids altogether. */
  function AddWithIds(ix: Index, embs: seq<Vector>, ids: seq<int>): (r: Result<Index, Error>)
    ensures r.Success? <==>
      |embs| > 0 && AllOfDimension(embs, ix.dim) && |ids| == |embs| && ix.kind == IdMap
    ensures |embs| == 0 ==> r == Failure(NotAMatrix)
    ensures |embs| > 0 && !AllOfDimension(embs, ix.dim) ==> r == Failure(DimensionMismatch)
    ensures |embs| > 0 && AllOfDimension(embs, ix.dim) && |ids| != |embs| ==> r == Failure(IdCountMismatch)
    ensures |embs| > 0 && AllOfDimension(embs, ix.dim) && |ids| == |embs| && ix.kind == FlatL2 ==>
      r == Failure(AddWithIdsUnsupported)
    ensures r.Success? ==>
      && r.value.kind == ix.kind && r.value.dim == ix.dim
      && |r.value.entries| == |ix.entries| + |embs|
      && r.value.entries[..|ix.entries|] == ix.entries
      && (forall i | 0 <= i < |embs| :: r.value.entries[|ix.entries| + i] == Entry(ids[i], embs[i]))
  {
    if |embs| == 0 then Failure(NotAMatrix)
    else if !AllOfDimension(embs, ix.dim) then Failure(DimensionMismatch)
    else if |ids| != |embs| then Failure(IdCountMismatch)
    else if !ix.kind.IdMap? then Failure(AddWithIdsUnsupported)
    else Success(ix.(entries := ix.entries + Pair(embs, ids)))
  }

  /** Every vector has the same length, so `np.array` makes a matrix of them. */
  predicate Rectangular(vs: seq<Vector>) {
    forall i, j | 0 <= i < |vs| && 0 <= j < |vs| :: |vs[i].values| == |vs[j].values|
  }

  /** add_embeddings_to_index: `add_with_ids` after the float32/int64 conversions, of which
      `np.array` raises first on vectors of different lengths. Existing entries are kept;
      the new ones follow in order, each vector under its id. */
  function AddEmbeddingsToIndex(ix: Index, embs: seq<Vector>, ids: seq<int>): (r: Result<Index, Error>)
    ensures r.Success? <==>
      |embs| > 0 && AllOfDimension(embs, ix.dim) && |ids| == |embs| && ix.kind == IdMap
    ensures !Rectangular(embs) ==> r == Failure(RaggedEmbeddings)
    ensures |embs| == 0 ==> r == Failure(NotAMatrix)
    ensures |embs| > 0 && Rectangular(embs) && !AllOfDimension(embs, ix.dim) ==> r == Failure(DimensionMismatch)
    ensures |embs| > 0 && AllOfDimension(embs, ix.dim) && |ids| != |embs| ==> r == Failure(IdCountMismatch)
    ensures |embs| > 0 && AllOfDimension(embs, ix.dim) && |ids| == |embs| && ix.kind == FlatL2 ==>
      r == Failure(AddWithIdsUnsupported)
    ensures r.Success? ==> r.value == Index(ix.kind, ix.dim, ix.entries + Pair(embs, ids))
    ensures r.Success? ==> IdsIn(r.value) == IdsIn(ix) + ids
  {
    if !Rectangular(embs) then Failure(RaggedEmbeddings)
    else
      var r := AddWithIds(ix, embs, ids);
      if r.Success? then
        assert IdsIn(r.value) == IdsIn(ix) + ids by {
          assert forall i | |ix.entries| <= i < |r.value.entries| ::
            r.value.entries[i] == r.value.entries[|ix.entries| + (i - |ix.entries|)];
          assert forall i | 0 <= i < |ix.entries| :: r.value.entries[i] == r.value.entries[..|ix.entries|][i];
        }
        r
      else r
  }

  /** `np.arange(n)`: the ids create_faiss_index assigns when none are given. */
  function Range(n: nat): (r: seq<int>)
    ensures |r| == n && forall i | 0 <= i < n :: r[i] == i
  {
    seq(n, i => i)
  }

  /** create_faiss_index: refuses a missing or empty batch, then a ragged one (`np.array`
      raises), then what `add_with_ids` refuses; otherwise builds an
      `IndexIDMap(IndexFlatL2(dim))` holding exactly the batch, each vector under its id
      (or under its position when no ids are given), and writes it to the default file. */
  function CreateFaissIndex(disk: Disk, embs: Option<seq<Vector>>, ids: Option<seq<int>>, dim: nat): (r: Result<Created, Error>)
    ensures embs.None? || |embs.value| == 0 ==> r == Failure(EmptyEmbeddings)
    ensures embs.Some? && |embs.value| > 0 && !Rectangular(embs.value) ==> r == Failure(RaggedEmbeddings)
    ensures embs.Some? && |embs.value| > 0 && Rectangular(embs.value) && !AllOfDimension(embs.value, dim) ==>
      r == Failure(DimensionMismatch)
    ensures embs.Some? && |embs.value| > 0 && AllOfDimension(embs.value, dim) && ids.Some? && |ids.value| != |embs.value| ==>
      r == Failure(IdCountMismatch)
    ensures r.Success? <==>
      && embs.Some? && |embs.value| > 0 && AllOfDimension(embs.value, dim)
      && (ids.None? || |ids.value| == |embs.value|)
    ensures r.Success? ==>
      var given := if ids.Some? then ids.value else Range(|embs.value|);
      && r.value.index.kind == IdMap && r.value.index.dim == dim
      && r.value.index.entries == Pair(embs.value, given)
      && r.value.disk == SaveFaissIndex(disk, r.value.index, DEFAULT_INDEX_FILE)
  {
    if embs.None? || |embs.value| == 0 then Failure(EmptyEmbeddings)
    else if !Rectangular(embs.value) then Failure(RaggedEmbeddings)
    else
      var given := if ids.Some? then ids.value else Range(|embs.value|);
      var added := AddWithIds(Index(IdMap, dim, []), embs.value, given);
      if added.Failure? then Failure(added.error)
      else
        assert added.value.entries == Pair(embs.value, given);
        Success(Created(SaveFaissIndex(disk, added.value, DEFAULT_INDEX_FILE), added.value))
  }

  // ---------------------------------------------------------------------------
  // search_faiss_index
  // ---------------------------------------------------------------------------

  /** `reshape(1, -1)`: all components of the given rows laid end to end as one query. */
  function Flatten(rows: seq<Vector>): (r: Vector)
    ensures |rows| == 1 ==> r == rows[0]
    ensures |rows| == 0 ==> r.values == []
  {
    if |rows| == 0 then Vector([])
    else
      var rest := Flatten(rows[1..]);
      assert |rows| == 1 ==> rest.values == [];
      Vector(rows[0].values + rest.values)
  }

  /** The label of the entry at position `p`: its position for a plain flat index, its id
      behind an `IndexIDMap`. */
  function Label(ix: Index, p: nat): int
    requires p < |ix.entries|
  {
    if ix.kind == IdMap then ix.entries[p].id else p
  }

  /** Result slot `i` of a search returning `k` slots. */
  function Slot(ix: Index, rk: Ranking, i: nat): Hit
    requires ValidRanking(ix, rk)
  {
    if i < |rk.order| then Hit(Label(ix, rk.order[i]), rk.distances[i]) else Hit(NO_LABEL, FLOAT32_MAX)
  }

  /** search_faiss_index: `index.search(query, k)` on one query row, zipped into hits.
      FAISS checks `d == self.d` and `k > 0`; it returns exactly `k` slots, the nearest
      stored vectors first, each reported once, and pads the slots past the number of
      stored vectors with label -1 at distance FLT_MAX. */
  function SearchFaissIndex(ix: Index, query: Vector, k: nat, rk: Ranking): (r: Result<seq<Hit>, Error>)
    requires ValidRanking(ix, rk)
    ensures r.Success? <==> |query.values| == ix.dim && k > 0
    ensures |query.values| != ix.dim ==> r == Failure(DimensionMismatch)
    ensures r.Success? ==> |r.value| == k
    ensures r.Success? ==> forall i | 0 <= i < k && i < |ix.entries| ::
      r.value[i] == Hit(Label(ix, rk.order[i]), rk.distances[i])
    ensures r.Success? ==> forall i | |ix.entries| <= i < k :: r.value[i] == Hit(NO_LABEL, FLOAT32_MAX)
  {
    if |query.values| != ix.dim then Failure(DimensionMismatch)
    else if k == 0 then Failure(NonPositiveK)
    else Success(seq(k, i requires 0 <= i < k => Slot(ix, rk, i)))
  }

  /** The hits of a search are nearest first, and behind an `IndexIDMap` every real hit
      carries an id stored in the index. */
  lemma SearchOrdersHits(ix: Index, query: Vector, k: nat, rk: Ranking)
    requires ValidRanking(ix, rk)
    requires SearchFaissIndex(ix, query, k, rk).Success?
    ensures var hits := SearchFaissIndex(ix, query, k, rk).value;
      && (forall i, j | 0 <= i < j < |hits| :: hits[i].distance <= hits[j].distance)
      && (ix.kind == IdMap ==> forall i | 0 <= i < |hits| && i < |ix.entries| :: hits[i].id in IdsIn(ix))
  {
    var hits := SearchFaissIndex(ix, query, k, rk).value;
    var n := |ix.entries|;
    forall i, j | 0 <= i < j < |hits|
      ensures hits[i].distance <= hits[j].distance
    {
      if j < n {
        assert rk.distances[i] <= rk.distances[j];
      } else if i < n {
        assert hits[j].distance == FLOAT32_MAX;
      }
    }
    if ix.kind == IdMap {
      forall i | 0 <= i < |hits| && i < n
        ensures hits[i].id in IdsIn(ix)
      {
        assert hits[i].id == IdsIn(ix)[rk.order[i]];
      }
    }
  }
}

=== FILE: wrappers.dfy ===
/** Failure-compatible datatypes used throughout the model: a Python `None`-or-value
    becomes an `Option`, a call that may raise becomes a `Result`. */
module Wrappers {

  datatype Option<+T> = None | Some(value: T)

  /** The outcome of a call that either returns a value or raises an exception. */
  datatype Result<+R, +E> = Success(value: R) | Failure(error: E)
}
